=== FILE: README.md ===
# Resource tool of the catalog repository, modelled in Dafny

`tools/resources/index.js` turns parsed checklists into Darwin Core tables.
For each work (a `<workId>.txt` file) that has no output yet, it does four
things:

- It sends the scientific names of every parsed resource to a name-matching
  service (gnverifier, restricted to the Catalogue of Life, data source 1,
  and the GBIF backbone, data source 11).
- It copies the returned identifiers onto the taxa, and collects the
  classification path of every applied match in one bucket per data source.
- It checks the result: every accepted taxon of a GBIF rank needs a GBIF
  identifier, and each bucket must share a prefix of at least three
  segments.
- It asks the operator to skip or retry every resource that is not already
  listed in the skip ledger `problems.csv`, and writes one CSV table per
  resource.

This project models that core as pure functions over immutable data, and
proves what each step promises.

| file | module | models |
|---|---|---|
| results.dfy | `Results` | `Option`, `Result` and the two uncaught TypeErrors (`Fault`) |
| text.dfy | `Text` | `split`, `join` and `startsWith` on strings |
| jsobject.dfy | `JsObject` | plain objects as insertion-ordered entries: `o[k] = v`, `Object.fromEntries`, `Object.values` |
| taxa.dfy | `Taxa` | taxa as property bags, resources, match rows, `DWC_FIELDS`, `GBIF_RANKS` |
| reconciler.dfy | `Reconciler` | `matchNames` (lines 164-205) |
| reconciler_properties.dfy | `ReconcilerProperties` | what the merge guarantees across rows, runs and taxa |
| prefix_pattern.dfy | `PrefixPattern` | `PREFIX_PATTERN` (line 70) and the per-bucket test (lines 151-158) |
| checker.dfy | `Checker` | `checkResults` (lines 130-162) |
| review.dfy | `Review` | `shouldBeSkipped` and `getMatchedResources` (lines 105-114, 207-247) |
| table.dfy | `RowTable` | the table built by `formatCsv` (lines 72-80) |
| pending.dfy | `Pending` | the choice and order of works in `main` (lines 262-274) |

Everything outside the process is a parameter:

- The matching service's reply is the list of already-parsed `MatchRow`s.
- The ledger search is its raw output text.
- Each parse attempt of a work is a function from the attempt number to the
  pending resources.
- The operator's replies are a finite list of strings. When that list runs
  out while a prompt is open, the outcome is `AwaitingAnswer`.

The two TypeErrors the core can throw are `Err` results:

- A match row of source '1' or '11' names no taxon of the resource
  (`taxon.colTaxonID` on `undefined`).
- A bucket joins to the empty text, so `PREFIX_PATTERN` does not match and
  `match[1]` reads `null`.

### Behaviour as the code has it

These behaviours of the code are kept in the model:

- The verdict of `checkResults` is computed and never read (line 215). Every
  resource that is not in the ledger is put to the operator, even one that
  passed (`Review.VerdictIsIgnored`).
- `checkResults` can throw (`EmptyBucket`). An unknown name in a match row
  makes `matchNames` throw (`NoTaxonNamed`).
- The GBIF ranks are spelled as in the code, with "phyllum". A taxon of rank
  "phylum" therefore never passes the gate for a GBIF identifier
  (`ReconcilerProperties.PhylumAndFormAreIneligible`). It can still be
  output with one: a later taxon of the same name lends it its record
  (`ReconcilerProperties.SharedNameConflates`).
- The bucket test is the regular expression itself.
  - The shared prefix is a start of the first path that is either the whole
    path or followed there by '|'.
  - Later paths need only start with it.
  - A bucket of a single non-empty path without line terminators never
    has a capture, so it is flagged. A bucket of a single empty path joins
    to the empty text and throws (`PrefixPattern.EmptyBucketFails`).
- A skipped resource is pushed twice: once at line 221 and again at line 244.
- The ledger record is written as `workId,id,""reason""` with no newline at
  its end. A second skip in the same run therefore continues the line of
  the first. Its id is then not in the second column of any line, so a
  later search of that column does not find it.
- Two taxa with the same scientific name end up sharing one merged record
  (`ReconcilerProperties.SharedNameConflates`).

## Model

| member | source | states |
|---|---|---|
| Text.Split | tools/resources/index.js:111 | every piece of `split` is free of the separator, and there is at least one piece |
| Text.SplitLength | tools/resources/index.js:111 | splitting yields exactly one piece more than the text has separators |
| Text.JoinSplit | tools/resources/index.js:152-154 | joining the pieces of a split gives back the text |
| Text.SplitJoin | tools/resources/index.js:152 | splitting the join of at least one separator-free piece gives back the pieces |
| JsObject.Put | tools/resources/index.js:197-201 | after `o[k] = v`, `k` reads `v` and every other key reads as before; an existing key keeps its place, a new one is appended; distinct keys stay distinct |
| JsObject.FromEntries | tools/resources/index.js:197-201 | `Object.fromEntries` has distinct keys, exactly the keys of the entries, and each key holds the value of its last entry |
| JsObject.LookupKeys | tools/resources/index.js:197-201 | a key reads as defined exactly when the object has it |
| JsObject.FromDistinctEntries | tools/resources/index.js:197-201 | entries with distinct keys are their own object, in order |
| Reconciler.LastWith | tools/resources/index.js:168-172 | finds a taxon exactly when one has that property value; the one found has it, and no later taxon does |
| Reconciler.Index | tools/resources/index.js:166-172 | the name index holds a name exactly when some taxon has it, and holds the taxon at a position after which no taxon has that name: a later taxon of the same name replaces an earlier one |
| Reconciler.IndexKeys | tools/resources/index.js:166-172 | the index's names are exactly the taxa's scientific names |
| Reconciler.ApplyRow | tools/resources/index.js:179-192 | one row throws exactly when it is of source '1' or '11' and names no indexed taxon. Otherwise it changes only its own taxon, only enriching it. A '1' row sets a missing colTaxonID and records its path in bucket '1'. An '11' row does the same for gbifTaxonID, but only for a GBIF rank. Any other row changes nothing |
| Reconciler.ApplyRows | tools/resources/index.js:178-193 | the loop throws exactly when some row is unresolvable; otherwise every indexed taxon is only enriched, no name is added or lost, and both buckets only grow |
| Reconciler.EnrichesKeepsKey | tools/resources/index.js:185-191 | enrichment leaves every property except the two identifiers as it was, the rank included |
| Reconciler.Rekey | tools/resources/index.js:195-202 | the re-keyed taxa have distinct keys, exactly the taxa's scientificNameIDs. Each key holds the merged copy of the name of the last taxon carrying that key |
| Reconciler.Reconcile | tools/resources/index.js:164-205 | `matchNames` throws exactly when a '1'/'11' row names an unknown taxon; otherwise it keeps the resource's identifiers and keys the taxa by exactly their scientificNameIDs, once each |
| ReconcilerProperties.ChangedIdComesFromRow | tools/resources/index.js:185-191 | an identifier changed by the loop holds the taxon id of a row of its own source naming that taxon |
| ReconcilerProperties.StepChangesFromRow | tools/resources/index.js:185-191 | one row changes an identifier only by writing its own id into its own taxon's identifier for its source |
| ReconcilerProperties.StepPaths | tools/resources/index.js:187-191 | one row adds at most its own path, and only to its own source's bucket |
| ReconcilerProperties.BucketEntriesComeFromRows | tools/resources/index.js:187-191 | every path added to a bucket is the path of a row of that bucket's source |
| ReconcilerProperties.FaultNamesUnknownTaxon | tools/resources/index.js:183-189 | when the loop throws, the fault names a '1'/'11' row whose name is not indexed |
| ReconcilerProperties.SettledRowsChangeNothing | tools/resources/index.js:178-193 | rows that are all settled in an index leave it unchanged |
| ReconcilerProperties.AppliedRowsAreSettled | tools/resources/index.js:178-193 | after the loop, every one of its rows is settled in the result |
| ReconcilerProperties.ApplyRowsIdempotent | tools/resources/index.js:178-193 | applying the same rows again to the merged index changes no taxon: enrichment is idempotent |
| ReconcilerProperties.OutputEnrichesInput | tools/resources/index.js:164-205 | every output key holds an enriched copy of the parsed taxon that owns the key's name |
| ReconcilerProperties.ReconcileUnique | tools/resources/index.js:164-205 | with distinct names and ids, the output lists the taxa in input order, each under its own id, each an enriched copy of itself |
| ReconcilerProperties.SharedNameConflates | tools/resources/index.js:166-201 | two taxa sharing a scientific name, each the last taxon carrying its own scientificNameID, are output under their ids with one and the same merged record |
| ReconcilerProperties.IneligibleRankKeepsGbifId | tools/resources/index.js:189-191 | when the taxa have distinct names and distinct ids, a taxon whose rank is not in GBIF_RANKS leaves with the GBIF identifier it came with |
| ReconcilerProperties.IneligibleLastOfNameKeepsGbifId | tools/resources/index.js:166-201 | a taxon whose rank is not in GBIF_RANKS, and which is the last taxon of its name and the last of its id, is output under its id with the GBIF identifier it came with; no distinctness of the other taxa is needed |
| ReconcilerProperties.LastWithAt | tools/resources/index.js:168-172 | the taxon the later-wins assignment keeps is the one at the last position holding the value |
| ReconcilerProperties.PhylumAndFormAreIneligible | tools/resources/index.js:58-68 | neither "phylum" nor "form" is a GBIF rank |
| ReconcilerProperties.ReconcileIdempotent | tools/resources/index.js:164-205 | with distinct names and ids, matching the output again with the same rows returns the same resource |
| ReconcilerProperties.ReindexMerged | tools/resources/index.js:166-201 | indexing the re-keyed merged taxa by name gives back the merged index, and re-keying them again gives the same entries |
| PrefixPattern.CapturesStartTheFirstLine | tools/resources/index.js:70 | every capture of group 1 is a start of the first line |
| PrefixPattern.Backtrack | tools/resources/index.js:70 | the backtracking of `(.+)` finds a capture of at most `n` characters, no shorter than any other such capture |
| PrefixPattern.Match | tools/resources/index.js:70 | the pattern fails only on the empty text; group 1 is the longest capture, or `undefined` when there is none |
| PrefixPattern.BucketConsistent | tools/resources/index.js:151-158 | a bucket throws exactly when it joins to the empty text, and passes exactly when some capture has at least three segments |
| PrefixPattern.LongestCaptureHasMostSegments | tools/resources/index.js:152-154 | no capture has more segments than group 1 |
| PrefixPattern.CaptureOfPaths | tools/resources/index.js:70 | for paths free of line terminators whose last path is non-empty, a capture is exactly a non-empty start of the first path (all of it or followed by '\|') that every other path starts with, and there are at least two paths |
| PrefixPattern.TwoSharedSegmentsAreFlagged | tools/resources/index.js:151-158 | paths parting after "A\|B" give group 1 "A\|B", and the bucket is flagged |
| PrefixPattern.ThreeSharedSegmentsPass | tools/resources/index.js:151-158 | the three paths "A\|B\|C\|D", "A\|B\|C\|E" and "A\|B\|C\|F", sharing "A\|B\|C", pass |
| PrefixPattern.LaterLinesNeedNotPartAtBar | tools/resources/index.js:70 | "A\|B\|C" then "A\|B\|CD" passes: later paths need not part at a '\|' |
| PrefixPattern.SinglePathIsFlagged | tools/resources/index.js:70 | a bucket of one non-empty path free of line terminators is flagged, however deep the path |
| PrefixPattern.EmptyBucketFails | tools/resources/index.js:152-153 | an empty bucket, or one whose only path is empty, throws |
| Checker.Missing | tools/resources/index.js:132-145 | a taxon is listed exactly when it is accepted, of a GBIF rank and without a truthy GBIF identifier |
| Checker.Check | tools/resources/index.js:130-162 | throws exactly when a bucket joins to the empty text, bucket '1' first; correct exactly when no taxon is missing its GBIF identifier and both buckets have a capture of at least three segments |
| Checker.SameFlagsSameVerdict | tools/resources/index.js:134-145 | the verdict depends on the taxa only through which of them are flagged |
| Checker.ColIdentifierNeverChecked | tools/resources/index.js:138 | giving a taxon any colTaxonID, or removing it, never changes the verdict |
| Checker.NotAcceptedNeverFlagged | tools/resources/index.js:136 | replacing a taxon that is not accepted by any other that is not accepted never changes the verdict |
| Checker.FlaggedOnlyIfParsedWithoutGbif | tools/resources/index.js:136-139 | with distinct names and ids, a matched taxon is flagged only if it was parsed accepted, of a GBIF rank and without a GBIF identifier |
| Review.Triage | tools/resources/index.js:210-216 | a resource crashes exactly when matching throws, or when it is not in the ledger and checking throws. It is listed exactly when it matched and the ledger names it. It carries the matched resource |
| Review.Review | tools/resources/index.js:207-247 | the review only appends to the ledger, and returns from no earlier attempt than the current one |
| Review.Ask | tools/resources/index.js:218-241 | the prompt loop only appends to the ledger, and returns from no earlier attempt |
| Review.GetMatchedResources | tools/resources/index.js:207-247 | a returned list means no resource of the final parse attempt threw; the list holds every resource of that attempt and nothing else, once for a ledger hit and twice for a resource the operator was asked about |
| Review.ReviewAccepts | tools/resources/index.js:207-247 | a returned list is what was pushed plus the expected copies of the rest, or, after a retry, the expected copies of the whole attempt it retried to; none of those resources threw |
| Review.AskAccepts | tools/resources/index.js:218-244 | the same from inside the prompt of a resource that will be pushed twice |
| Review.ExpectedCovers | tools/resources/index.js:219-244 | with no crash, the list holds every resource and nothing else, once for each plus once more for each prompted one |
| Review.LedgerHitIsTwoNewlines | tools/resources/index.js:111 | the ledger search is a hit exactly when its output holds at least two newlines |
| Review.LedgerLineNamesTheResource | tools/resources/index.js:231 | for ids without commas, the skip record's first column is the work id and its second is the resource id, the column the search looks in when the record starts a line |
| Review.VerdictIsIgnored | tools/resources/index.js:214-216 | a matched resource outside the ledger is prompted whether the verdict is true or false, and crashes only when checking throws |
| Review.PromptWaitsForAnAnswer | tools/resources/index.js:225 | a prompted resource with no answer left leaves the review waiting |
| Review.NoiseIsReasked | tools/resources/index.js:225-240 | an answer starting with none of s, S, r, R is dropped and the question asked again |
| Review.SkipAppendsOneRecord | tools/resources/index.js:228-233 | a skip takes the next answer as its reason, appends exactly one record naming the resource, and pushes the resource twice |
| Review.RetryStartsOver | tools/resources/index.js:236-238 | a retry drops all pushed resources and restarts on a fresh parse, keeping the ledger records |
| Review.LedgerHitsNeedNoAnswers | tools/resources/index.js:210-245 | resources all in the ledger are pushed once each without any answer being read |
| RowTable.FormatTable | tools/resources/index.js:72-80 | the table is the header followed by one row per taxon, in order; cell j of a taxon row is the taxon's value in column j, or "" where it is missing or empty; each row reads back as exactly the taxon's non-empty Darwin Core values |
| RowTable.CellsRecover | tools/resources/index.js:76 | any row of cells reads back as the taxon's non-empty values in its header's columns |
| Pending.Basename | tools/resources/index.js:266 | a name ending in ".txt" loses exactly that ending; any other name is kept |
| Pending.BasenameOfTextFile | tools/resources/index.js:266 | the id of `<id>.txt` is `id` |
| Pending.Insert | tools/resources/index.js:267 | inserting into a sorted list adds exactly that id and keeps it sorted by number |
| Pending.InsertKeepsTies | tools/resources/index.js:267 | the inserted id goes after every id of equal number: for each number, the ids of that number are the old ones followed by it |
| Pending.SortByNumber | tools/resources/index.js:265-267 | the ids are reordered, nothing added or lost, into ascending order of the number after their first character |
| Pending.SortIsStable | tools/resources/index.js:267 | the sort is stable: for each number, the ids of that number appear in the order the listing gave them |
| Pending.NumericOrder | tools/resources/index.js:267 | "w10", "w9", "w1" sort to "w1", "w9", "w10": by value, not text |
| Pending.TiesKeepListingOrder | tools/resources/index.js:267 | "a1", "b1", of equal number, stay in that order |
| Pending.SelectPending | tools/resources/index.js:262-274 | the works processed are sorted by number and are exactly the input ids (with their multiplicity) that no output file name starts with; for each number, they are the unfinished ids of that number in listing order |
| Pending.DropFinished | tools/resources/index.js:269-274 | the loop keeps exactly the ids no output name starts with, in the order of its input (the order-keeping filter `Unfinished`), so its output is sorted too |
| Pending.UnfinishedByNumber | tools/resources/index.js:267-274 | dropping finished ids and picking out one number commute |
| Pending.UnfinishedKeeps | tools/resources/index.js:269-274 | the filter keeps each unfinished id as often as it occurs and drops every finished one |
| Pending.DoneByPrefix | tools/resources/index.js:270 | a work counts as done once any output name starts with its id, so "w10.csv" also marks "w1" done |

## Left out

- Calling gnverifier and xsv, reading directories and files, writing the
  CSV files, and the readline prompts. Their results are parameters, and
  the CSV encoding of a table is not part of this model (csv.js is not
  part of this model).
- The projection of gnverifier's reply through `header.indexOf` (lines
  177-182). Rows arrive already projected onto the four columns.
- `getResources` (lines 116-128): reading the text file, its
  retry-on-parse-error loop and the `require` cache. The parser is
  represented by its result on each attempt.
- `processWork` (lines 249-260): the concurrent `Promise.all` writes and
  closing readline. Each resource's table is `RowTable.FormatTable`.
- All console output. This includes the `console.table` of missing taxa,
  the short-prefix message, and the error exit of lines 277-280.
- JavaScript's ordering of integer-like object keys, the `__proto__` key,
  and property values other than strings. Objects are kept in insertion
  order.
- Names inherited from `Object.prototype` (`constructor`, `toString`,
  `hasOwnProperty`, ...). At line 183 `taxa[name]` finds such a name even
  when no taxon has it. A '1' row then writes onto the inherited value, and
  an '11' row evaluates `includes(undefined)`; neither throws. The model
  knows only the taxa's own names, so `Reconciler.ApplyRow` returns
  `NoTaxonNamed` for these rows.
- The fire-and-forget `fs.appendFile`: the model does not relate a record
  appended by one invocation of the tool to later ledger searches. Ledger search output is
  given per resource.
- Pending.Number: reads an id that is not one character followed by
  decimal digits as 0. JavaScript's `-` would give NaN or use its wider
  number syntax, and a NaN comparison leaves the sort order up to the
  engine.
- Pending.SortByNumber: compares the numbers as exact integers. The source
  subtracts IEEE doubles (line 267). Two ids whose numbers differ only
  beyond 2^53 round to the same double there, so they compare equal and
  keep their listing order. For example, "w9007199254740993" and
  "w9007199254740992" both become 2^53. The model puts the smaller number
  first. Digit strings beyond about 1e308 become Infinity, and
  Infinity - Infinity is NaN, which leaves the order to the engine. The
  model orders them by value.
- PrefixPattern.CaptureOfPaths: not stated for a bucket whose last path
  is empty or whose paths hold line terminators. An empty last path lets
  the pattern's trailing `\n?` match a capture that is not a shared start
  of the paths, as for "A|B", "A|B", "". `PrefixPattern.Match` and
  `BucketConsistent` still cover these buckets.
- ReconcilerProperties.IneligibleRankKeepsGbifId: stated only when the
  taxa have distinct names and distinct ids. With a shared name, an earlier
  taxon of an ineligible rank is output with the later taxon's merged
  record, so a GBIF identifier set on that later taxon shows up under the
  earlier one's id (`SharedNameConflates`). `IneligibleLastOfNameKeepsGbifId`
  states the gate for every taxon that is the last of its name and of its
  id.
- ReconcilerProperties.ReconcileIdempotent: stated only for resources whose
  taxa have distinct names and distinct ids. With a shared name, the
  second run gives the taxa their conflated records, so the resource is
  not the same (`SharedNameConflates`).
- Review.GetMatchedResources: its contract is about the list it returns.
  The order of prompts and the text of the messages are not modelled.

=== FILE: checker.dfy ===
/** The consistency check run before a resource is offered for review
    (`checkResults`, tools/resources/index.js lines 130-162): every accepted
    taxon of a GBIF rank needs a GBIF identifier, and each classification
    bucket must share a prefix of at least three segments. The missing
    Catalogue of Life identifier is deliberately never checked. */
module Checker {
  import opened Results
  import opened Text
  import opened JsObject
  import opened Taxa
  import opened Reconciler
  import opened PrefixPattern
  import opened ReconcilerProperties

  /** The condition under which a taxon is listed as missing. */
  predicate MissingGbif(t: Taxon) {
    t.IsAccepted() && t.HasGbifRank() && !t.Truthy(GbifTaxonID)
  }

  /** The `missing` list, in the order of the taxa. */
  function Missing(ts: Entries<Taxon>): (m: seq<Taxon>)
    ensures |m| <= |ts|
    ensures forall t :: t in m <==> t in ValuesOf(ts) && MissingGbif(t)
  {
    if |ts| == 0 then []
    else
      assert ValuesOf(ts) == [ts[0].1] + ValuesOf(ts[1..]);
      (if MissingGbif(ts[0].1) then [ts[0].1] else []) + Missing(ts[1..])
  }

  /** `checkResults`: `Ok(correct)`, or the TypeError thrown at line 153 when
      a bucket joins to the empty text (bucket '1' is looked at first). It is
      `Ok(true)` exactly when no taxon is missing its GBIF identifier and both
      buckets have a capture of at least three segments. */
  function Check(rec: Reconciled): (r: Result<bool>)
    ensures r.Err? <==> Join(rec.buckets.col, '\n') == [] || Join(rec.buckets.gbif, '\n') == []
    ensures r.Err? ==> r.fault == if Join(rec.buckets.col, '\n') == [] then EmptyBucket("1") else EmptyBucket("11")
    ensures r == Ok(true) <==>
      && (forall i :: 0 <= i < |rec.resource.taxa| ==> !MissingGbif(rec.resource.taxa[i].1))
      && (exists p :: IsCapture(Join(rec.buckets.col, '\n'), p) && Segments(p) >= 3)
      && (exists p :: IsCapture(Join(rec.buckets.gbif, '\n'), p) && Segments(p) >= 3)
  {
    var complete := Missing(rec.resource.taxa) == [];
    assert complete <==> forall i :: 0 <= i < |rec.resource.taxa| ==> !MissingGbif(rec.resource.taxa[i].1) by {
      var ts := rec.resource.taxa;
      if !complete {
        var t := Missing(ts)[0];
        assert t in ValuesOf(ts);
        var i :| 0 <= i < |ts| && ValuesOf(ts)[i] == t;
        assert MissingGbif(ts[i].1);
      } else {
        forall i | 0 <= i < |ts| ensures !MissingGbif(ts[i].1) {
          assert ValuesOf(ts)[i] == ts[i].1;
        }
      }
    }
    match BucketConsistent(rec.buckets.col, "1")
    case Err(e) => Err(e)
    case Ok(colOk) =>
      match BucketConsistent(rec.buckets.gbif, "11")
      case Err(e) => Err(e)
      case Ok(gbifOk) => Ok(complete && colOk && gbifOk)
  }

  /** The verdict depends on the taxa only through which of them are flagged. */
  lemma SameFlagsSameVerdict(rec: Reconciled, rec2: Reconciled)
    requires rec2.buckets == rec.buckets
    requires |rec2.resource.taxa| == |rec.resource.taxa|
    requires forall i :: 0 <= i < |rec.resource.taxa| ==> (MissingGbif(rec2.resource.taxa[i].1) <==> MissingGbif(rec.resource.taxa[i].1))
    ensures Check(rec2) == Check(rec)
  {
    var ts, ts2 := rec.resource.taxa, rec2.resource.taxa;
    assert (forall i :: 0 <= i < |ts| ==> !MissingGbif(ts[i].1)) <==> (forall i :: 0 <= i < |ts2| ==> !MissingGbif(ts2[i].1));
    var r, r2 := Check(rec), Check(rec2);
    assert r.Err? <==> r2.Err?;
    if r.Ok? {
      assert r.value <==> r2.value;
    }
  }

  /** The Catalogue of Life identifier is never checked: giving any taxon any
      colTaxonID, or taking it away, leaves the verdict as it was. */
  lemma ColIdentifierNeverChecked(rec: Reconciled, i: int, v: Option<string>)
    requires 0 <= i < |rec.resource.taxa|
    ensures var t := rec.resource.taxa[i].1;
      var t2 := if v.Some? then t.Set(ColTaxonID, v.value) else Taxon(t.fields - {ColTaxonID});
      var rec2 := rec.(resource := rec.resource.(taxa := rec.resource.taxa[i := (rec.resource.taxa[i].0, t2)]));
      Check(rec2) == Check(rec)
  {
    var t := rec.resource.taxa[i].1;
    var t2 := if v.Some? then t.Set(ColTaxonID, v.value) else Taxon(t.fields - {ColTaxonID});
    assert t2.Field(TaxonomicStatus) == t.Field(TaxonomicStatus);
    assert t2.Field(TaxonRank) == t.Field(TaxonRank);
    assert t2.Field(GbifTaxonID) == t.Field(GbifTaxonID);
    var rec2 := rec.(resource := rec.resource.(taxa := rec.resource.taxa[i := (rec.resource.taxa[i].0, t2)]));
    SameFlagsSameVerdict(rec, rec2);
  }

  /** A taxon that is not accepted is never flagged, whatever else it holds:
      replacing it by any other taxon that is not accepted leaves the
      verdict as it was. */
  lemma NotAcceptedNeverFlagged(rec: Reconciled, i: int, t2: Taxon)
    requires 0 <= i < |rec.resource.taxa|
    requires !rec.resource.taxa[i].1.IsAccepted() && !t2.IsAccepted()
    ensures var rec2 := rec.(resource := rec.resource.(taxa := rec.resource.taxa[i := (rec.resource.taxa[i].0, t2)]));
      Check(rec2) == Check(rec)
  {
    var rec2 := rec.(resource := rec.resource.(taxa := rec.resource.taxa[i := (rec.resource.taxa[i].0, t2)]));
    SameFlagsSameVerdict(rec, rec2);
  }

  /** After matching a resource whose taxa have distinct names and
      identifiers, a taxon is flagged only if it was parsed accepted, of a
      GBIF rank and without a GBIF identifier: a parsed identifier is never
      lost, and status and rank are never changed. */
  lemma FlaggedOnlyIfParsedWithoutGbif(res: Resource, rows: seq<MatchRow>, i: int)
    requires Reconcile(res, rows).Ok? && Unique(ValuesOf(res.taxa))
    requires 0 <= i < |res.taxa|
    ensures |Reconcile(res, rows).value.resource.taxa| == |res.taxa|
    ensures MissingGbif(Reconcile(res, rows).value.resource.taxa[i].1) ==> MissingGbif(res.taxa[i].1)
  {
    ReconcileUnique(res, rows);
    var before := res.taxa[i].1;
    assert ValuesOf(res.taxa)[i] == before;
    var after := Reconcile(res, rows).value.resource.taxa[i].1;
    EnrichesKeepsKey(before, after, TaxonomicStatus);
    EnrichesKeepsKey(before, after, TaxonRank);
  }
}

=== FILE: jsobject.dfy ===
/** A plain JavaScript object as the core uses one: string keys, each at most
    once, kept in insertion order. Assigning to an existing key replaces its
    value in place; assigning to a new key appends it. (The engine's special
    ordering of integer-like keys is not modelled.) */
module JsObject {
  import opened Results

  type Entries<V> = seq<(string, V)>

  function KeysOf<V>(o: Entries<V>): seq<string> {
    seq(|o|, i requires 0 <= i < |o| => o[i].0)
  }

  /** `Object.values(o)`. */
  function ValuesOf<V>(o: Entries<V>): seq<V> {
    seq(|o|, i requires 0 <= i < |o| => o[i].1)
  }

  predicate DistinctKeys<V>(o: Entries<V>) {
    forall i, j :: 0 <= i < j < |o| ==> o[i].0 != o[j].0
  }

  /** `o[k]`, or `None` for `undefined`. */
  function Lookup<V>(o: Entries<V>, k: string): Option<V> {
    if |o| == 0 then None
    else if o[0].0 == k then Some(o[0].1)
    else Lookup(o[1..], k)
  }

  /** `o[k] = v`. */
  function Put<V>(o: Entries<V>, k: string, v: V): (r: Entries<V>)
    ensures Lookup(r, k) == Some(v)
    ensures forall k' :: k' != k ==> Lookup(r, k') == Lookup(o, k')
    ensures k in KeysOf(o) ==> KeysOf(r) == KeysOf(o)
    ensures k !in KeysOf(o) ==> KeysOf(r) == KeysOf(o) + [k]
    ensures DistinctKeys(o) ==> DistinctKeys(r)
  {
    if |o| == 0 then [(k, v)]
    else if o[0].0 == k then
      KeysOfCons(o[0], o[1..]);
      KeysOfCons((k, v), o[1..]);
      assert [o[0]] + o[1..] == o;
      [(k, v)] + o[1..]
    else
      var rest := Put(o[1..], k, v);
      KeysOfCons(o[0], o[1..]);
      KeysOfCons(o[0], rest);
      assert [o[0]] + o[1..] == o;
      PutDistinctStep(o, k, rest);
      [o[0]] + rest
  }

  lemma KeysOfCons<V>(h: (string, V), rest: Entries<V>)
    ensures KeysOf([h] + rest) == [h.0] + KeysOf(rest)
  {
  }

  /** The step of `Put` past a first entry with another key keeps keys
      distinct. */
  lemma PutDistinctStep<V>(o: Entries<V>, k: string, rest: Entries<V>)
    requires |o| > 0 && o[0].0 != k
    requires forall k' :: k' in KeysOf(rest) ==> k' in KeysOf(o[1..]) || k' == k
    requires DistinctKeys(o[1..]) ==> DistinctKeys(rest)
    ensures DistinctKeys(o) ==> DistinctKeys([o[0]] + rest)
  {
    if DistinctKeys(o) {
      assert DistinctKeys(o[1..]) by {
        forall i, j | 0 <= i < j < |o[1..]| ensures o[1..][i].0 != o[1..][j].0 {
          assert o[1..][i] == o[i + 1] && o[1..][j] == o[j + 1];
        }
      }
      assert o[0].0 !in KeysOf(o[1..]) by {
        forall j | 0 <= j < |o[1..]| ensures KeysOf(o[1..])[j] != o[0].0 {
          assert KeysOf(o[1..])[j] == o[j + 1].0;
        }
      }
      ConsDistinct(o[0], rest);
    }
  }

  lemma ConsDistinct<V>(h: (string, V), rest: Entries<V>)
    requires DistinctKeys(rest) && h.0 !in KeysOf(rest)
    ensures DistinctKeys([h] + rest)
  {
    var r := [h] + rest;
    forall i, j | 0 <= i < j < |r| ensures r[i].0 != r[j].0 {
      assert r[j] == rest[j - 1];
      if i == 0 {
        assert KeysOf(rest)[j - 1] == rest[j - 1].0;
      } else {
        assert r[i] == rest[i - 1];
      }
    }
  }

  /** The value of the last entry with key `k`: the one that wins when the
      entries are assigned in order. */
  function LastValue<V>(entries: Entries<V>, k: string): Option<V> {
    if |entries| == 0 then None
    else if entries[|entries| - 1].0 == k then Some(entries[|entries| - 1].1)
    else LastValue(entries[..|entries| - 1], k)
  }

  /** `Object.fromEntries(entries)`. */
  function FromEntries<V>(entries: Entries<V>): (o: Entries<V>)
    ensures DistinctKeys(o)
    ensures forall k :: Lookup(o, k) == LastValue(entries, k)
    ensures forall k :: k in KeysOf(o) <==> k in KeysOf(entries)
  {
    if |entries| == 0 then []
    else
      var n := |entries| - 1;
      var prev := FromEntries(entries[..n]);
      assert KeysOf(entries) == KeysOf(entries[..n]) + [entries[n].0];
      Put(prev, entries[n].0, entries[n].1)
  }

  /** Lookup finds exactly the keys an object has. */
  lemma {:induction false} LookupKeys<V>(o: Entries<V>, k: string)
    ensures Lookup(o, k).Some? <==> k in KeysOf(o)
  {
    if |o| > 0 {
      assert KeysOf(o) == [o[0].0] + KeysOf(o[1..]);
      LookupKeys(o[1..], k);
    }
  }

  /** Entries whose keys are already distinct are their own object. */
  lemma {:induction false} FromDistinctEntries<V>(entries: Entries<V>)
    requires DistinctKeys(entries)
    ensures FromEntries(entries) == entries
  {
    if |entries| > 0 {
      var n := |entries| - 1;
      FromDistinctEntries(entries[..n]);
      assert entries[n].0 !in KeysOf(entries[..n]);
      PutNewKey(entries[..n], entries[n].0, entries[n].1);
      assert entries[..n] + [entries[n]] == entries;
    }
  }

  lemma {:induction false} PutNewKey<V>(o: Entries<V>, k: string, v: V)
    requires k !in KeysOf(o)
    ensures Put(o, k, v) == o + [(k, v)]
  {
    if |o| > 0 {
      assert KeysOf(o)[0] == o[0].0;
      assert KeysOf(o[1..]) == KeysOf(o)[1..];
      PutNewKey(o[1..], k, v);
      assert Put(o, k, v) == [o[0]] + Put(o[1..], k, v);
      assert [o[0]] + (o[1..] + [(k, v)]) == o + [(k, v)];
    }
  }
}

=== FILE: pending.dfy ===
/** The choice of works still to process (`main`, tools/resources/index.js
    lines 262-274): the names of the parsed text files without their ".txt"
    ending, ordered by the number after their first character, less every
    id that some output file name starts with. */
module Pending {
  import opened Text

  const TxtSuffix := ".txt"

  predicate EndsWith(s: string, suffix: string) {
    |suffix| <= |s| && s[|s| - |suffix|..] == suffix
  }

  /** `path.basename(file, '.txt')` for a plain file name. */
  function Basename(file: string): (id: string)
    ensures EndsWith(file, TxtSuffix) ==> id + TxtSuffix == file
    ensures !EndsWith(file, TxtSuffix) ==> id == file
  {
    if EndsWith(file, TxtSuffix) then file[..|file| - |TxtSuffix|] else file
  }

  function Basenames(files: seq<string>): (ids: seq<string>)
    ensures |ids| == |files|
    ensures forall i :: 0 <= i < |files| ==> ids[i] == Basename(files[i])
  {
    seq(|files|, i requires 0 <= i < |files| => Basename(files[i]))
  }

  predicate IsDigit(c: char) {
    '0' <= c <= '9'
  }

  /** A work id: one leading character, then decimal digits. */
  predicate IsWorkId(id: string) {
    |id| >= 1 && forall j :: 1 <= j < |id| ==> IsDigit(id[j])
  }

  /** The value of a string of decimal digits; the empty string is 0, as
      JavaScript converts it. */
  function DecimalValue(s: string): nat
    requires forall j :: 0 <= j < |s| ==> IsDigit(s[j])
  {
    if |s| == 0 then 0
    else
      assert IsDigit(s[|s| - 1]);
      DecimalValue(s[..|s| - 1]) * 10 + ((s[|s| - 1] as int) - ('0' as int))
  }

  /** `id.slice(1)` as a number, for a work id; 0 for any other name. */
  function Number(id: string): nat {
    if IsWorkId(id) then DecimalValue(id[1..]) else 0
  }

  predicate SortedByNumber(ids: seq<string>) {
    forall i, j :: 0 <= i < j < |ids| ==> Number(ids[i]) <= Number(ids[j])
  }

  /** `x` placed after every id of `sorted` whose number does not exceed its
      own. */
  function Insert(x: string, sorted: seq<string>): (r: seq<string>)
    requires SortedByNumber(sorted)
    ensures multiset(r) == multiset(sorted) + multiset{x}
    ensures |r| == |sorted| + 1
    ensures r[0] == x || (|sorted| > 0 && r[0] == sorted[0])
    ensures SortedByNumber(r)
  {
    if |sorted| == 0 then [x]
    else if Number(x) < Number(sorted[0]) then
      SortedCons(x, sorted);
      assert multiset([x] + sorted) == multiset(sorted) + multiset{x};
      [x] + sorted
    else
      var rest := Insert(x, sorted[1..]);
      MultisetCons(sorted, rest, x);
      assert SortedByNumber(sorted[1..]);
      SortedCons(sorted[0], rest);
      [sorted[0]] + rest
  }

  lemma MultisetCons(sorted: seq<string>, rest: seq<string>, x: string)
    requires |sorted| > 0 && multiset(rest) == multiset(sorted[1..]) + multiset{x}
    ensures multiset([sorted[0]] + rest) == multiset(sorted) + multiset{x}
  {
    assert sorted == [sorted[0]] + sorted[1..];
  }

  /** An id no greater than any of a sorted list may go in front of it. */
  lemma SortedCons(h: string, rest: seq<string>)
    requires SortedByNumber(rest)
    requires |rest| > 0 ==> Number(h) <= Number(rest[0])
    ensures SortedByNumber([h] + rest)
  {
    var r := [h] + rest;
    forall i, j | 0 <= i < j < |r| ensures Number(r[i]) <= Number(r[j]) {
      assert r[j] == rest[j - 1];
      if i > 0 {
        assert r[i] == rest[i - 1];
      } else if j > 1 {
        assert Number(rest[0]) <= Number(rest[j - 1]);
      }
    }
  }

  /** `.sort((a, b) => a.slice(1) - b.slice(1))`. */
  function SortByNumber(ids: seq<string>): (r: seq<string>)
    ensures multiset(r) == multiset(ids)
    ensures SortedByNumber(r)
  {
    if |ids| == 0 then []
    else
      var n := |ids| - 1;
      assert ids == ids[..n] + [ids[n]];
      Insert(ids[n], SortByNumber(ids[..n]))
  }

  /** The ids of `ids` whose number is `v`, in their order. */
  function WithNumber(ids: seq<string>, v: nat): seq<string> {
    if |ids| == 0 then []
    else (if Number(ids[0]) == v then [ids[0]] else []) + WithNumber(ids[1..], v)
  }

  /** The sort is stable, as `Array.prototype.sort` is: ids of equal number
      keep the order they had. */
  lemma {:induction false} SortIsStable(ids: seq<string>, v: nat)
    ensures WithNumber(SortByNumber(ids), v) == WithNumber(ids, v)
  {
    if |ids| > 0 {
      var n := |ids| - 1;
      var sorted := SortByNumber(ids[..n]);
      var tie := if Number(ids[n]) == v then [ids[n]] else [];
      assert SortByNumber(ids) == Insert(ids[n], sorted);
      assert WithNumber(sorted, v) == WithNumber(ids[..n], v) by {
        SortIsStable(ids[..n], v);
      }
      assert WithNumber(Insert(ids[n], sorted), v) == WithNumber(sorted, v) + tie by {
        InsertKeepsTies(ids[n], sorted, v);
      }
      WithNumberLast(ids, v);
    }
  }

  lemma WithNumberLast(ids: seq<string>, v: nat)
    requires |ids| > 0
    ensures WithNumber(ids, v) == WithNumber(ids[..|ids| - 1], v) + (if Number(ids[|ids| - 1]) == v then [ids[|ids| - 1]] else [])
  {
    var y := ids[|ids| - 1];
    assert ids == ids[..|ids| - 1] + [y];
    WithNumberAppend(ids[..|ids| - 1], [y], v);
    WithNumberCons(y, [], v);
    assert [y] + [] == [y];
  }

  lemma {:induction false} WithNumberAppend(a: seq<string>, b: seq<string>, v: nat)
    ensures WithNumber(a + b, v) == WithNumber(a, v) + WithNumber(b, v)
  {
    if |a| == 0 {
      assert a + b == b;
    } else {
      assert (a + b)[1..] == a[1..] + b;
      WithNumberAppend(a[1..], b, v);
    }
  }

  lemma {:induction false} NoneWithNumber(ids: seq<string>, v: nat)
    requires forall i :: 0 <= i < |ids| ==> Number(ids[i]) != v
    ensures WithNumber(ids, v) == []
  {
    if |ids| > 0 {
      NoneWithNumber(ids[1..], v);
    }
  }

  /** `Insert` puts its id after every id of equal number. */
  lemma {:induction false} InsertKeepsTies(x: string, sorted: seq<string>, v: nat)
    requires SortedByNumber(sorted)
    ensures WithNumber(Insert(x, sorted), v) == WithNumber(sorted, v) + (if Number(x) == v then [x] else [])
  {
    if |sorted| == 0 || Number(x) < Number(sorted[0]) {
      assert Insert(x, sorted) == [x] + sorted;
      TiesInFront(x, sorted, v);
    } else {
      var rest := Insert(x, sorted[1..]);
      assert Insert(x, sorted) == [sorted[0]] + rest;
      assert SortedByNumber(sorted[1..]);
      InsertKeepsTies(x, sorted[1..], v);
      TiesAfterHead(sorted[0], sorted[1..], rest, if Number(x) == v then [x] else [], v);
      assert [sorted[0]] + sorted[1..] == sorted;
    }
  }

  lemma TiesInFront(x: string, sorted: seq<string>, v: nat)
    requires SortedByNumber(sorted)
    requires |sorted| == 0 || Number(x) < Number(sorted[0])
    ensures WithNumber([x] + sorted, v) == WithNumber(sorted, v) + (if Number(x) == v then [x] else [])
  {
    WithNumberCons(x, sorted, v);
    if Number(x) == v {
      NoneWithNumber(sorted, v);
    }
  }

  lemma TiesAfterHead(h: string, tail: seq<string>, rest: seq<string>, tie: seq<string>, v: nat)
    requires WithNumber(rest, v) == WithNumber(tail, v) + tie
    ensures WithNumber([h] + rest, v) == WithNumber([h] + tail, v) + tie
  {
    var head := if Number(h) == v then [h] else [];
    WithNumberCons(h, rest, v);
    WithNumberCons(h, tail, v);
    assert head + (WithNumber(tail, v) + tie) == (head + WithNumber(tail, v)) + tie;
  }

  lemma WithNumberCons(h: string, rest: seq<string>, v: nat)
    ensures WithNumber([h] + rest, v) == (if Number(h) == v then [h] else []) + WithNumber(rest, v)
  {
    assert ([h] + rest)[1..] == rest;
  }

  /** `output.some(file => file.startsWith(id))`. */
  predicate AlreadyDone(id: string, outputFiles: seq<string>) {
    exists i :: 0 <= i < |outputFiles| && StartsWith(outputFiles[i], id)
  }

  /** `todo` keeps exactly the ids of `seen` that are not done. */
  ghost predicate KeepsUnfinished(todo: seq<string>, seen: seq<string>, outputFiles: seq<string>) {
    forall x :: multiset(todo)[x] == if AlreadyDone(x, outputFiles) then 0 else multiset(seen)[x]
  }

  /** The ids `main` hands on to processing, in order: the sorted ids less
      those already done, each as often as a text file yields it. */
  method SelectPending(inputFiles: seq<string>, outputFiles: seq<string>) returns (todo: seq<string>)
    ensures SortedByNumber(todo)
    ensures KeepsUnfinished(todo, Basenames(inputFiles), outputFiles)
    ensures forall v :: WithNumber(todo, v) == Unfinished(WithNumber(Basenames(inputFiles), v), outputFiles)
  {
    var ids := SortByNumber(Basenames(inputFiles));
    todo := DropFinished(ids, outputFiles);
    KeepsPermuted(todo, ids, Basenames(inputFiles), outputFiles);
    forall v ensures WithNumber(todo, v) == Unfinished(WithNumber(Basenames(inputFiles), v), outputFiles) {
      UnfinishedByNumber(ids, outputFiles, v);
      SortIsStable(Basenames(inputFiles), v);
    }
  }

  /** The loop of `main` over the sorted ids, keeping those not yet done. */
  method DropFinished(ids: seq<string>, outputFiles: seq<string>) returns (todo: seq<string>)
    requires SortedByNumber(ids)
    ensures SortedByNumber(todo)
    ensures KeepsUnfinished(todo, ids, outputFiles)
    ensures todo == Unfinished(ids, outputFiles)
  {
    todo := [];
    var n := 0;
    while n < |ids|
      invariant 0 <= n <= |ids|
      invariant SortedBelow(todo, ids, n)
      invariant todo == Unfinished(ids[..n], outputFiles)
    {
      UnfinishedStep(ids, n, outputFiles);
      if !AlreadyDone(ids[n], outputFiles) {
        AppendStep(todo, ids, n);
        todo := todo + [ids[n]];
      } else {
        SkipStep(todo, ids, n);
      }
      n := n + 1;
    }
    assert ids[..n] == ids;
    UnfinishedKeeps(ids, outputFiles);
  }

  lemma {:induction false} UnfinishedKeeps(ids: seq<string>, outputFiles: seq<string>)
    ensures KeepsUnfinished(Unfinished(ids, outputFiles), ids, outputFiles)
  {
    if |ids| > 0 {
      var n := |ids| - 1;
      UnfinishedKeeps(ids[..n], outputFiles);
      KeepStep(Unfinished(ids[..n], outputFiles), ids[..n], ids[n], outputFiles);
      UnfinishedStep(ids, n, outputFiles);
      assert ids[..n + 1] == ids[..n] + [ids[n]] == ids;
    }
  }

  /** The ids of `ids` that no output file marks as done, in their order. */
  function Unfinished(ids: seq<string>, outputFiles: seq<string>): seq<string> {
    if |ids| == 0 then []
    else (if AlreadyDone(ids[0], outputFiles) then [] else [ids[0]]) + Unfinished(ids[1..], outputFiles)
  }

  lemma UnfinishedStep(ids: seq<string>, n: nat, outputFiles: seq<string>)
    requires n < |ids|
    ensures Unfinished(ids[..n + 1], outputFiles) ==
      Unfinished(ids[..n], outputFiles) + (if AlreadyDone(ids[n], outputFiles) then [] else [ids[n]])
  {
    assert ids[..n + 1] == ids[..n] + [ids[n]];
    UnfinishedJoin(ids[..n], [ids[n]], outputFiles);
    assert [ids[n]][1..] == [];
  }

  /** Dropping the finished ids and picking out one number commute. */
  lemma {:induction false} UnfinishedByNumber(ids: seq<string>, outputFiles: seq<string>, v: nat)
    ensures WithNumber(Unfinished(ids, outputFiles), v) == Unfinished(WithNumber(ids, v), outputFiles)
  {
    if |ids| > 0 {
      var x := ids[0];
      var kept := if AlreadyDone(x, outputFiles) then [] else [x];
      var picked := if Number(x) == v then [x] else [];
      UnfinishedByNumber(ids[1..], outputFiles, v);
      WithNumberAppend(kept, Unfinished(ids[1..], outputFiles), v);
      UnfinishedJoin(picked, WithNumber(ids[1..], v), outputFiles);
      if picked != [] {
        assert picked[1..] == [];
      }
      if kept != [] {
        assert kept[1..] == [];
      }
    }
  }

  lemma {:induction false} UnfinishedJoin(a: seq<string>, b: seq<string>, outputFiles: seq<string>)
    ensures Unfinished(a + b, outputFiles) == Unfinished(a, outputFiles) + Unfinished(b, outputFiles)
  {
    if |a| == 0 {
      assert a + b == b;
    } else {
      assert (a + b)[1..] == a[1..] + b;
      UnfinishedJoin(a[1..], b, outputFiles);
    }
  }

  /** `todo` is sorted and no later id of `ids`, from the `n`-th on, sorts
      before any of it. */
  predicate SortedBelow(todo: seq<string>, ids: seq<string>, n: nat) {
    && SortedByNumber(todo)
    && forall i, j :: 0 <= i < |todo| && n <= j < |ids| ==> Number(todo[i]) <= Number(ids[j])
  }

  lemma KeepsPermuted(todo: seq<string>, seen: seq<string>, seen2: seq<string>, outputFiles: seq<string>)
    requires KeepsUnfinished(todo, seen, outputFiles) && multiset(seen) == multiset(seen2)
    ensures KeepsUnfinished(todo, seen2, outputFiles)
  {
  }

  lemma KeepStep(todo: seq<string>, seen: seq<string>, y: string, outputFiles: seq<string>)
    requires KeepsUnfinished(todo, seen, outputFiles)
    ensures AlreadyDone(y, outputFiles) ==> KeepsUnfinished(todo, seen + [y], outputFiles)
    ensures !AlreadyDone(y, outputFiles) ==> KeepsUnfinished(todo + [y], seen + [y], outputFiles)
  {
  }

  lemma AppendStep(todo: seq<string>, ids: seq<string>, n: nat)
    requires n < |ids| && SortedByNumber(ids) && SortedBelow(todo, ids, n)
    ensures SortedBelow(todo + [ids[n]], ids, n + 1)
  {
  }

  lemma SkipStep(todo: seq<string>, ids: seq<string>, n: nat)
    requires n < |ids| && SortedBelow(todo, ids, n)
    ensures SortedBelow(todo, ids, n + 1)
  {
  }

  /** The suffix is taken off again: `basename(id + '.txt', '.txt')` is `id`. */
  lemma BasenameOfTextFile(id: string)
    ensures Basename(id + TxtSuffix) == id
  {
    assert (id + TxtSuffix)[|id|..] == TxtSuffix;
    assert (id + TxtSuffix)[..|id|] == id;
  }

  /** Ids order by value, not by text: "w10" comes after "w9". */
  lemma NumericOrder()
    ensures SortByNumber(["w10", "w9", "w1"]) == ["w1", "w9", "w10"]
  {
    assert ["w10", "w9", "w1"][..2] == ["w10", "w9"];
    SortTwo();
    InsertOne();
  }

  lemma SortTwo()
    ensures SortByNumber(["w10", "w9"]) == ["w9", "w10"]
  {
    SmallNumbers();
    assert SortByNumber(["w10"]) == ["w10"] by {
      assert ["w10"][..0] == [];
    }
    assert ["w10", "w9"][..1] == ["w10"];
    assert Insert("w9", ["w10"]) == ["w9"] + ["w10"];
  }

  lemma InsertOne()
    ensures Insert("w1", ["w9", "w10"]) == ["w1", "w9", "w10"]
  {
    SmallNumbers();
    SmallSorted();
    assert Insert("w1", ["w9", "w10"]) == ["w1"] + ["w9", "w10"];
  }

  lemma SmallSorted()
    ensures SortedByNumber(["w9", "w10"]) && SortedByNumber(["a1"])
  {
    SmallNumbers();
  }

  lemma SmallNumbers()
    ensures Number("w1") == 1 && Number("w9") == 9 && Number("w10") == 10
    ensures Number("a1") == 1 && Number("b1") == 1
  {
    assert "w1"[1..] == "1";
    assert "w9"[1..] == "9";
    assert "w10"[1..] == "10";
    assert "10"[..1] == "1";
    assert "1"[..0] == "";
    assert "a1"[1..] == "1";
    assert "b1"[1..] == "1";
  }

  /** Ids of equal number keep the order the directory listing gave them. */
  lemma TiesKeepListingOrder()
    ensures SortByNumber(["a1", "b1"]) == ["a1", "b1"]
  {
    SmallNumbers();
    SmallSorted();
    assert SortByNumber(["a1"]) == ["a1"] by {
      assert ["a1"][..0] == [];
    }
    assert ["a1", "b1"][..1] == ["a1"];
    assert Insert("b1", ["a1"]) == ["a1"] + Insert("b1", []) by {
      assert ["a1"][1..] == [];
    }
  }

  /** An id counts as done once some output file name starts with it: its own
      output does it, and so does the output of any id it is a prefix of. */
  lemma DoneByPrefix(id: string, outputFiles: seq<string>)
    ensures AlreadyDone(id, [id + ".csv"] + outputFiles)
    ensures AlreadyDone("w1", ["w10.csv"])
    ensures !AlreadyDone("w2", ["w10.csv"])
  {
    assert ([id + ".csv"] + outputFiles)[0] == id + ".csv";
    assert StartsWith(id + ".csv", id) by {
      assert (id + ".csv")[..|id|] == id;
    }
    assert ["w10.csv"][0] == "w10.csv";
    assert StartsWith("w10.csv", "w1") by { assert "w10.csv"[..2] == "w1"; }
    assert "w10.csv"[..2] != "w2" by { assert "w10.csv"[1] != "w2"[1]; }
  }
}

=== FILE: prefix_pattern.dfy ===
/** PREFIX_PATTERN (tools/resources/index.js line 70),
        /^(?:(.+)(?:\|.*)?(?:\n\1.*)+\n?|[\s\S]+)$/
    written out as a function rather than a regular expression. No flags are
    set, so `.` matches anything but a line terminator and `^`/`$` anchor the
    whole text. The first alternative captures, in group 1, the longest
    non-empty start `p` of the first line that is the whole line or ends just
    before a '|', such that every later line starts with `p` (a single final
    empty line is absorbed by `\n?`, and at least one later line is needed).
    When no `p` qualifies, `[\s\S]+` matches any non-empty text and group 1 is
    `undefined`. The empty text matches neither. */
module PrefixPattern {
  import opened Results
  import opened Text

  /** The characters JavaScript's `.` does not match. */
  predicate IsLineTerminator(c: char) {
    c == '\n' || c == '\r' || c == '\U{2028}' || c == '\U{2029}'
  }

  predicate NoLineTerminator(s: string) {
    forall i :: 0 <= i < |s| ==> !IsLineTerminator(s[i])
  }

  /** The lines the repetition `(?:\n\1.*)+` has to consume: all lines after
      the first, less one final empty line that `\n?` takes. */
  function LaterLines(lines: seq<string>): seq<string>
    requires |lines| >= 1
  {
    var rest := lines[1..];
    if |rest| > 0 && rest[|rest| - 1] == [] then rest[..|rest| - 1] else rest
  }

  /** The first alternative matches the whole of `text` with `p` in group 1. */
  predicate IsCapture(text: string, p: string) {
    CapturesLines(Split(text, '\n'), p)
  }

  /** The same, in terms of the text's lines. */
  predicate CapturesLines(lines: seq<string>, p: string)
    requires |lines| >= 1
  {
    var first := lines[0];
    var later := LaterLines(lines);
    && p != []
    && NoLineTerminator(first)
    && StartsWith(first, p)
    && (|first| == |p| || first[|p|] == '|')
    && |later| >= 1
    && forall i :: 0 <= i < |later| ==> StartsWith(later[i], p) && NoLineTerminator(later[i])
  }

  /** Every capture is a start of the first line. */
  lemma CapturesStartTheFirstLine(text: string)
    ensures forall q :: IsCapture(text, q) ==> |q| <= |Split(text, '\n')[0]| && q == Split(text, '\n')[0][..|q|]
  {
  }

  /** Outcome of `text.match(PREFIX_PATTERN)`: `null`, or a match with group 1
      either captured or `undefined`. */
  datatype RegexMatch = NoMatch | Matched(group: Option<string>)

  /** The backtracking of the greedy `(.+)`: the longest capture of at most `n`
      characters. */
  function Backtrack(text: string, n: nat): (r: Option<string>)
    requires n <= |Split(text, '\n')[0]|
    ensures r.Some? ==> IsCapture(text, r.value) && |r.value| <= n
    ensures forall q :: IsCapture(text, q) && |q| <= n ==> r.Some? && |q| <= |r.value|
  {
    var first := Split(text, '\n')[0];
    if n == 0 then None
    else if IsCapture(text, first[..n]) then Some(first[..n])
    else
      NotTheLongestCapture(text, n);
      Backtrack(text, n - 1)
  }

  /** When the start of length `n` is no capture, every capture of at most
      `n` characters has fewer than `n`. */
  lemma NotTheLongestCapture(text: string, n: nat)
    requires 0 < n <= |Split(text, '\n')[0]|
    requires !IsCapture(text, Split(text, '\n')[0][..n])
    ensures forall q :: IsCapture(text, q) && |q| <= n ==> |q| < n
  {
    CapturesStartTheFirstLine(text);
  }

  /** `text.match(PREFIX_PATTERN)`: no match exactly for the empty text;
      otherwise group 1 is the longest capture, or `undefined` when there is
      none. */
  function Match(text: string): (r: RegexMatch)
    ensures r == NoMatch <==> text == []
    ensures r.Matched? && r.group.Some? ==>
      IsCapture(text, r.group.value) && forall q :: IsCapture(text, q) ==> |q| <= |r.group.value|
    ensures r.Matched? && r.group.None? ==> forall q :: !IsCapture(text, q)
  {
    if text == [] then NoMatch
    else
      CapturesStartTheFirstLine(text);
      Matched(Backtrack(text, |Split(text, '\n')[0]|))
  }

  /** `prefix.split('|').length`. */
  function Segments(prefix: string): nat {
    |Split(prefix, '|')|
  }

  /** Lines 151-158 for one bucket: `Ok(true)` when the bucket passes, `Ok(false)`
      when its shared prefix has fewer than 3 segments, an error when the
      joined paths are empty. It passes exactly when some capture has at least
      3 segments. */
  function BucketConsistent(paths: seq<string>, source: string): (r: Result<bool>)
    ensures r.Err? <==> Join(paths, '\n') == []
    ensures r.Err? ==> r.fault == EmptyBucket(source)
    ensures r == Ok(true) <==> exists p :: IsCapture(Join(paths, '\n'), p) && Segments(p) >= 3
  {
    var text := Join(paths, '\n');
    match Match(text)
    case NoMatch => Err(EmptyBucket(source))
    case Matched(group) =>
      var prefix := if group.Some? then group.value else [];
      LongestCaptureHasMostSegments(text, group);
      Ok(Segments(prefix) >= 3)
  }

  lemma LongestCaptureHasMostSegments(text: string, group: Option<string>)
    requires Match(text) == Matched(group)
    ensures group.Some? ==> forall q :: IsCapture(text, q) ==> Segments(q) <= Segments(group.value)
  {
    if group.Some? {
      forall q | IsCapture(text, q) ensures Segments(q) <= Segments(group.value) {
        CapturesNest(text, q, group.value);
      }
    }
  }

  /** A shorter capture is a start of a longer one, so it has no more
      segments. */
  lemma CapturesNest(text: string, q: string, p: string)
    requires IsCapture(text, q) && IsCapture(text, p) && |q| <= |p|
    ensures Segments(q) <= Segments(p)
  {
    var first := Split(text, '\n')[0];
    assert q == first[..|q|] && p == first[..|p|];
    CountPrefix(first, |q|, |p|, '|');
    SplitLength(q, '|');
    SplitLength(p, '|');
  }

  /** For paths without line terminators whose last one is not empty, a
      capture is exactly a non-empty start of the first path, either all of
      it or followed there by '|', that every other path starts with; it
      takes at least two paths. */
  lemma CaptureOfPaths(paths: seq<string>, p: string)
    requires |paths| >= 1 && paths[|paths| - 1] != []
    requires forall i :: 0 <= i < |paths| ==> NoLineTerminator(paths[i])
    ensures IsCapture(Join(paths, '\n'), p) <==> SharedStart(paths, p)
  {
    forall i | 0 <= i < |paths| ensures '\n' !in paths[i] {
      assert IsLineTerminator('\n');
    }
    SplitJoin(paths, '\n');
    CapturesPaths(paths, p);
  }

  /** A non-empty start of the first path, all of it or followed there by
      '|', that every other path starts with. */
  predicate SharedStart(paths: seq<string>, p: string) {
    && |paths| >= 2
    && p != []
    && (paths[0] == p || StartsWith(paths[0], p + "|"))
    && forall i :: 1 <= i < |paths| ==> StartsWith(paths[i], p)
  }

  lemma CapturesPaths(paths: seq<string>, p: string)
    requires |paths| >= 1 && paths[|paths| - 1] != []
    requires forall i :: 0 <= i < |paths| ==> NoLineTerminator(paths[i])
    ensures CapturesLines(paths, p) <==> SharedStart(paths, p)
  {
    var later := LaterLines(paths);
    assert later == paths[1..];
    assert forall i :: 1 <= i < |paths| ==> paths[i] == later[i - 1];
    FollowedByBar(paths[0], p);
  }

  lemma FollowedByBar(first: string, p: string)
    ensures (StartsWith(first, p) && (|first| == |p| || first[|p|] == '|')) <==> (first == p || StartsWith(first, p + "|"))
  {
    if StartsWith(first, p) && |first| > |p| {
      assert (p + "|")[..|p|] == p;
      if first[|p|] == '|' {
        assert first[..|p| + 1] == first[..|p|] + [first[|p|]];
      }
    }
    if StartsWith(first, p + "|") {
      assert first[..|p|] == (p + "|")[..|p|] == p;
      assert first[|p|] == (p + "|")[|p|];
    }
  }

  /** Three paths that part after two segments: the prefix is "A|B" and the
      bucket is flagged. */
  lemma TwoSharedSegmentsAreFlagged()
    ensures Match("A|B|C|D\nA|B|C|E\nA|B|X|Y") == Matched(Some("A|B"))
    ensures BucketConsistent(["A|B|C|D", "A|B|C|E", "A|B|X|Y"], "11") == Ok(false)
  {
    PartingPathsMatch();
    PartingPathsJoin();
    TwoSegments();
  }

  lemma PartingPathsMatch()
    ensures Match(Join(PartingPaths(), '\n')) == Matched(Some("A|B"))
  {
    var text := Join(PartingPaths(), '\n');
    forall q ensures IsCapture(text, q) ==> |q| <= 3 {
      PartingPathsCaptures(q);
    }
    PartingPathsCaptures("A|B");
    PartingPathsLines();
    CapturesStartTheFirstLine(text);
    var m := Match(text);
    assert m.Matched? && m.group.Some?;
    var v := m.group.value;
    assert |v| == 3;
    assert v == Split(text, '\n')[0][..3];
    assert Split(text, '\n')[0][..3] == "A|B";
  }

  lemma PartingPathsLines()
    ensures Split(Join(PartingPaths(), '\n'), '\n') == PartingPaths()
  {
    SplitJoin(PartingPaths(), '\n');
  }

  function PartingPaths(): seq<string> {
    ["A|B|C|D", "A|B|C|E", "A|B|X|Y"]
  }

  lemma PartingPathsJoin()
    ensures Join(PartingPaths(), '\n') == "A|B|C|D\nA|B|C|E\nA|B|X|Y"
  {
  }

  lemma PartingPathsCaptures(q: string)
    ensures IsCapture(Join(PartingPaths(), '\n'), q) ==> |q| <= 3
    ensures IsCapture(Join(PartingPaths(), '\n'), "A|B")
  {
    var paths := PartingPaths();
    CaptureOfPaths(paths, q);
    CaptureOfPaths(paths, "A|B");
    assert StartsWith(paths[0], "A|B" + "|");
    assert paths[0][4] == 'C' && paths[2][4] == 'X';
    if |q| >= 5 && StartsWith(paths[0], q) {
      assert q[4] == paths[0][4];
    }
    if |q| >= 5 && StartsWith(paths[2], q) {
      assert q[4] == paths[2][4];
    }
    if |q| == 4 {
      assert (q + "|")[4] == '|';
    }
  }

  lemma TwoSegments()
    ensures Segments("A|B") == 2
  {
    SplitNoSeparator("A", '|');
    SplitNoSeparator("B", '|');
    SplitAfterSeparator("A", "B", '|');
    assert "A" + ['|'] + "B" == "A|B";
  }

  /** A bucket whose paths all share three whole segments passes. */
  lemma ThreeSharedSegmentsPass()
    ensures BucketConsistent(["A|B|C|D", "A|B|C|E", "A|B|C|F"], "1") == Ok(true)
  {
    SharedPathsCapture();
    ThreeSegments();
  }

  function SharedPaths(): seq<string> {
    ["A|B|C|D", "A|B|C|E", "A|B|C|F"]
  }

  lemma SharedPathsCapture()
    ensures IsCapture(Join(SharedPaths(), '\n'), "A|B|C")
  {
    var paths := SharedPaths();
    CaptureOfPaths(paths, "A|B|C");
    assert StartsWith(paths[0], "A|B|C" + "|");
    assert paths[1][..5] == "A|B|C" && paths[2][..5] == "A|B|C";
  }

  lemma ThreeSegments()
    ensures Segments("A|B|C") == 3
  {
    SplitNoSeparator("C", '|');
    SplitAfterSeparator("B", "C", '|');
    assert "B" + ['|'] + "C" == "B|C";
    SplitNoSeparator("A", '|');
    SplitAfterSeparator("A", "B|C", '|');
    assert "A" + ['|'] + "B|C" == "A|B|C";
  }

  /** Later lines need only start with the prefix, not part from it at a
      '|': "A|B|CD" counts as sharing the three segments of "A|B|C". */
  lemma LaterLinesNeedNotPartAtBar()
    ensures BucketConsistent(["A|B|C", "A|B|CD"], "11") == Ok(true)
  {
    LongerPathsCapture();
    ThreeSegments();
  }

  function LongerPaths(): seq<string> {
    ["A|B|C", "A|B|CD"]
  }

  lemma LongerPathsCapture()
    ensures IsCapture(Join(LongerPaths(), '\n'), "A|B|C")
  {
    CaptureOfPaths(LongerPaths(), "A|B|C");
  }

  /** A bucket of one path has no later line to share a prefix with, so it is
      flagged however deep the path is. */
  lemma SinglePathIsFlagged(path: string)
    requires path != [] && NoLineTerminator(path)
    ensures BucketConsistent([path], "1") == Ok(false)
  {
    assert Join([path], '\n') == path;
    forall q ensures !IsCapture(path, q) {
      CaptureOfPaths([path], q);
    }
  }

  /** An empty bucket, or one whose only path is empty, is an error. */
  lemma EmptyBucketFails(source: string)
    ensures BucketConsistent([], source) == Err(EmptyBucket(source))
    ensures BucketConsistent([""], source) == Err(EmptyBucket(source))
  {
    assert Join([""], '\n') == "";
  }
}

=== FILE: reconciler.dfy ===
/** The merge of name-matching results into a resource (`matchNames`,
    tools/resources/index.js lines 164-205), with the call to the matching
    service replaced by its already-parsed rows. */
module Reconciler {
  import opened Results
  import opened JsObject
  import opened Taxa

  /** The classification paths of the rows actually applied, per data source:
      `classifications['1']` and `classifications['11']`. */
  datatype Buckets = Buckets(col: seq<string>, gbif: seq<string>)

  /** The name index of taxon copies and the buckets, while rows are applied. */
  datatype State = State(index: map<string, Taxon>, buckets: Buckets)

  /** The pair `[results, classifications]` that `matchNames` returns. */
  datatype Reconciled = Reconciled(resource: Resource, buckets: Buckets)

  predicate IsMatchSource(source: string) {
    source == "1" || source == "11"
  }

  /** The last of `ts` whose property `f` reads as `k`: the one that wins when
      the taxa are assigned under that key in order. */
  function LastWith(ts: seq<Taxon>, f: string, k: string): (r: Option<Taxon>)
    ensures r.Some? <==> exists i :: 0 <= i < |ts| && ts[i].Key(f) == k
    ensures r.Some? ==> r.value in ts && r.value.Key(f) == k
    ensures r.Some? ==> exists i :: LastAt(ts, f, k, i) && ts[i] == r.value
  {
    if |ts| == 0 then None
    else if ts[|ts| - 1].Key(f) == k then Some(ts[|ts| - 1])
    else
      var r := LastWith(ts[..|ts| - 1], f, k);
      if r.Some? then LastAtShifts(ts, ts[..|ts| - 1], f, k, r.value); r else r
  }

  /** Position `i` holds a taxon whose `f` reads as `k`, and no later one
      does. */
  predicate LastAt(ts: seq<Taxon>, f: string, k: string, i: int) {
    0 <= i < |ts| && ts[i].Key(f) == k && forall j :: i < j < |ts| ==> ts[j].Key(f) != k
  }

  lemma LastAtShifts(ts: seq<Taxon>, pre: seq<Taxon>, f: string, k: string, t: Taxon)
    requires |ts| > 0 && pre == ts[..|ts| - 1] && ts[|ts| - 1].Key(f) != k
    requires exists i :: LastAt(pre, f, k, i) && pre[i] == t
    ensures exists i :: LastAt(ts, f, k, i) && ts[i] == t
  {
    var i :| LastAt(pre, f, k, i) && pre[i] == t;
    assert LastAt(ts, f, k, i);
  }

  /** The names under which the taxa are indexed. */
  function NameSet(ts: seq<Taxon>): set<string> {
    set t | t in ts :: t.Key(ScientificName)
  }

  /** The keys of the re-keyed result. */
  function IdSet(ts: seq<Taxon>): set<string> {
    set t | t in ts :: t.Key(ScientificNameID)
  }

  /** A row the loop can process: a row of source '1' or '11' must name an
      indexed taxon, or reading its identifier throws. */
  predicate Resolvable(index: map<string, Taxon>, row: MatchRow) {
    IsMatchSource(row.source) ==> row.name in index
  }

  /** How a taxon may differ after rows have been applied to it: only the two
      identifiers change, a truthy identifier keeps its value, a present one
      stays present, and the GBIF identifier does not move unless the rank is
      one of GBIF_RANKS. */
  predicate Enriches(before: Taxon, after: Taxon) {
    && after.Erase() == before.Erase()
    && (before.Truthy(ColTaxonID) ==> after.Field(ColTaxonID) == before.Field(ColTaxonID))
    && (before.Truthy(GbifTaxonID) ==> after.Field(GbifTaxonID) == before.Field(GbifTaxonID))
    && (ColTaxonID in before.fields ==> ColTaxonID in after.fields)
    && (GbifTaxonID in before.fields ==> GbifTaxonID in after.fields)
    && (!before.HasGbifRank() ==> after.Field(GbifTaxonID) == before.Field(GbifTaxonID))
  }

  /** Lines 166-172: a copy of every taxon under its scientific name. A later
      taxon with the same name takes the slot of an earlier one. */
  function Index(ts: seq<Taxon>): (index: map<string, Taxon>)
    ensures forall n :: n in index <==> LastWith(ts, ScientificName, n).Some?
    ensures forall n :: n in index ==> index[n] == LastWith(ts, ScientificName, n).value
    ensures forall n :: n in index ==> exists i :: LastAt(ts, ScientificName, n, i) && index[n] == ts[i]
  {
    if |ts| == 0 then map[]
    else
      var n := |ts| - 1;
      Index(ts[..n])[ts[n].Key(ScientificName) := ts[n]]
  }

  /** Lines 179-192: one row of the loop. */
  function ApplyRow(st: State, row: MatchRow): (r: Result<State>)
    ensures r.Ok? <==> Resolvable(st.index, row)
    ensures r.Err? ==> r.fault == NoTaxonNamed(row.name)
    ensures !IsMatchSource(row.source) ==> r == Ok(st)
    ensures r.Ok? ==> r.value.index.Keys == st.index.Keys
    ensures r.Ok? ==> forall n :: n in st.index && n != row.name ==> r.value.index[n] == st.index[n]
    ensures r.Ok? && row.name in st.index ==> Enriches(st.index[row.name], r.value.index[row.name])
    ensures r.Ok? && row.source == "1" ==>
      if st.index[row.name].Truthy(ColTaxonID) then r.value == st
      else
        && r.value.index[row.name] == st.index[row.name].Set(ColTaxonID, row.taxonId)
        && r.value.buckets == Buckets(st.buckets.col + [row.path], st.buckets.gbif)
    ensures r.Ok? && row.source == "11" ==>
      if !st.index[row.name].HasGbifRank() || st.index[row.name].Truthy(GbifTaxonID) then r.value == st
      else
        && r.value.index[row.name] == st.index[row.name].Set(GbifTaxonID, row.taxonId)
        && r.value.buckets == Buckets(st.buckets.col, st.buckets.gbif + [row.path])
  {
    if !IsMatchSource(row.source) then Ok(st)
    else if row.name !in st.index then Err(NoTaxonNamed(row.name))
    else
      var t := st.index[row.name];
      if row.source == "1" then
        if t.Truthy(ColTaxonID) then Ok(st)
        else
          EraseIgnoresIdentifiers(t, ColTaxonID, row.taxonId);
          Ok(State(st.index[row.name := t.Set(ColTaxonID, row.taxonId)],
                   Buckets(st.buckets.col + [row.path], st.buckets.gbif)))
      else
        if !t.HasGbifRank() || t.Truthy(GbifTaxonID) then Ok(st)
        else
          EraseIgnoresIdentifiers(t, GbifTaxonID, row.taxonId);
          Ok(State(st.index[row.name := t.Set(GbifTaxonID, row.taxonId)],
                   Buckets(st.buckets.col, st.buckets.gbif + [row.path])))
  }

  lemma EraseIgnoresIdentifiers(t: Taxon, f: string, v: string)
    requires f == ColTaxonID || f == GbifTaxonID
    ensures t.Set(f, v).Erase() == t.Erase()
    ensures t.Set(f, v).HasGbifRank() == t.HasGbifRank()
    ensures f != ColTaxonID ==> t.Set(f, v).Field(ColTaxonID) == t.Field(ColTaxonID)
    ensures f != GbifTaxonID ==> t.Set(f, v).Field(GbifTaxonID) == t.Field(GbifTaxonID)
  {
    assert TaxonRank != f;
  }

  lemma EnrichesTransitive(a: Taxon, b: Taxon, c: Taxon)
    requires Enriches(a, b) && Enriches(b, c)
    ensures Enriches(a, c)
  {
    EnrichesKeepsKey(a, b, TaxonRank);
  }

  /** Enrichment leaves every property but the two identifiers alone. */
  lemma EnrichesKeepsKey(a: Taxon, b: Taxon, f: string)
    requires Enriches(a, b)
    requires f != ColTaxonID && f != GbifTaxonID
    ensures b.Field(f) == a.Field(f) && b.Key(f) == a.Key(f)
    ensures a.HasGbifRank() == b.HasGbifRank()
  {
    assert f in a.fields <==> f in a.Erase().fields;
    assert f in b.fields <==> f in b.Erase().fields;
    assert TaxonRank in a.fields <==> TaxonRank in a.Erase().fields;
    assert TaxonRank in b.fields <==> TaxonRank in b.Erase().fields;
    if f in a.fields {
      assert a.fields[f] == a.Erase().fields[f];
      assert b.fields[f] == b.Erase().fields[f];
    }
    if TaxonRank in a.fields {
      assert a.fields[TaxonRank] == a.Erase().fields[TaxonRank];
      assert b.fields[TaxonRank] == b.Erase().fields[TaxonRank];
    }
  }

  /** Lines 178-193: the rows applied in order; the first unresolvable row
      throws. Rows only enrich the indexed taxa, and the buckets only grow. */
  function ApplyRows(st: State, rows: seq<MatchRow>): (r: Result<State>)
    ensures r.Ok? <==> forall i :: 0 <= i < |rows| ==> Resolvable(st.index, rows[i])
    ensures r.Ok? ==> r.value.index.Keys == st.index.Keys
    ensures r.Ok? ==> forall n :: n in st.index ==> Enriches(st.index[n], r.value.index[n])
    ensures r.Ok? ==> IsPrefix(st.buckets.col, r.value.buckets.col) && IsPrefix(st.buckets.gbif, r.value.buckets.gbif)
    decreases |rows|
  {
    if |rows| == 0 then Ok(st)
    else
      match ApplyRow(st, rows[0])
      case Err(e) => Err(e)
      case Ok(next) =>
        var r := ApplyRows(next, rows[1..]);
        assert forall i :: 0 <= i < |rows[1..]| ==> rows[1..][i] == rows[i + 1];
        if r.Ok? then
          EnrichesAfterStep(st, next, r.value, rows[0].name);
          BucketsGrow(st, rows[0]);
          PrefixTransitive(st.buckets.col, next.buckets.col, r.value.buckets.col);
          PrefixTransitive(st.buckets.gbif, next.buckets.gbif, r.value.buckets.gbif);
          r
        else
          r
  }

  predicate IsPrefix(a: seq<string>, b: seq<string>) {
    |a| <= |b| && b[..|a|] == a
  }

  lemma PrefixTransitive(a: seq<string>, b: seq<string>, c: seq<string>)
    requires IsPrefix(a, b) && IsPrefix(b, c)
    ensures IsPrefix(a, c)
  {
    assert c[..|a|] == c[..|b|][..|a|];
  }

  /** One applied row leaves each bucket as it was or extends it. */
  lemma BucketsGrow(st: State, row: MatchRow)
    requires ApplyRow(st, row).Ok?
    ensures IsPrefix(st.buckets.col, ApplyRow(st, row).value.buckets.col)
    ensures IsPrefix(st.buckets.gbif, ApplyRow(st, row).value.buckets.gbif)
  {
    var b := ApplyRow(st, row).value.buckets;
    assert (st.buckets.col + [row.path])[..|st.buckets.col|] == st.buckets.col;
    assert (st.buckets.gbif + [row.path])[..|st.buckets.gbif|] == st.buckets.gbif;
  }

  lemma EnrichesAfterStep(st: State, next: State, fin: State, name: string)
    requires next.index.Keys == st.index.Keys == fin.index.Keys
    requires forall n :: n in st.index && n != name ==> next.index[n] == st.index[n]
    requires name in st.index ==> Enriches(st.index[name], next.index[name])
    requires forall n :: n in next.index ==> Enriches(next.index[n], fin.index[n])
    ensures forall n :: n in st.index ==> Enriches(st.index[n], fin.index[n])
  {
    if name in st.index {
      EnrichesTransitive(st.index[name], next.index[name], fin.index[name]);
    }
  }

  /** The entries handed to `Object.fromEntries` at lines 197-201: every taxon's
      scientificNameID with the merged copy indexed under its name. */
  function RekeyEntries(ts: seq<Taxon>, merged: map<string, Taxon>): (es: Entries<Taxon>)
    requires forall i :: 0 <= i < |ts| ==> ts[i].Key(ScientificName) in merged
    ensures |es| == |ts|
    ensures forall i :: 0 <= i < |ts| ==> es[i] == (ts[i].Key(ScientificNameID), merged[ts[i].Key(ScientificName)])
  {
    seq(|ts|, i requires 0 <= i < |ts| => (ts[i].Key(ScientificNameID), merged[ts[i].Key(ScientificName)]))
  }

  /** The last entry for a key comes from the last taxon with that
      scientificNameID. */
  lemma {:induction false} LastRekeyEntry(ts: seq<Taxon>, merged: map<string, Taxon>, k: string)
    requires forall i :: 0 <= i < |ts| ==> ts[i].Key(ScientificName) in merged
    ensures LastWith(ts, ScientificNameID, k).Some? ==>
      LastValue(RekeyEntries(ts, merged), k) == Some(merged[LastWith(ts, ScientificNameID, k).value.Key(ScientificName)])
    ensures LastWith(ts, ScientificNameID, k).None? ==> LastValue(RekeyEntries(ts, merged), k) == None
  {
    if |ts| > 0 {
      var n := |ts| - 1;
      assert RekeyEntries(ts, merged)[..n] == RekeyEntries(ts[..n], merged);
      LastRekeyEntry(ts[..n], merged, k);
    }
  }

  /** Lines 195-202: the taxa re-keyed by scientificNameID. Each key holds the
      merged copy belonging to the name of the last taxon carrying that key. */
  function Rekey(ts: seq<Taxon>, merged: map<string, Taxon>): (o: Entries<Taxon>)
    requires forall i :: 0 <= i < |ts| ==> ts[i].Key(ScientificName) in merged
    ensures DistinctKeys(o)
    ensures forall k :: k in KeysOf(o) <==> k in IdSet(ts)
    ensures forall k :: LastWith(ts, ScientificNameID, k).Some? ==>
      Lookup(o, k) == Some(merged[LastWith(ts, ScientificNameID, k).value.Key(ScientificName)])
  {
    var es := RekeyEntries(ts, merged);
    forall k ensures k in KeysOf(es) <==> k in IdSet(ts) {
      if k in IdSet(ts) {
        var t :| t in ts && t.Key(ScientificNameID) == k;
        var i :| 0 <= i < |ts| && ts[i] == t;
        assert KeysOf(es)[i] == k;
      }
    }
    forall k ensures LastWith(ts, ScientificNameID, k).Some? ==>
      LastValue(es, k) == Some(merged[LastWith(ts, ScientificNameID, k).value.Key(ScientificName)])
    {
      LastRekeyEntry(ts, merged, k);
    }
    FromEntries(es)
  }

  /** `matchNames`: index the taxa by name, apply the rows, re-key by
      scientificNameID. It throws exactly when a row of source '1' or '11'
      names no taxon of the resource; otherwise the result carries the
      resource's own identifiers and one taxon per distinct scientificNameID. */
  function Reconcile(res: Resource, rows: seq<MatchRow>): (r: Result<Reconciled>)
    ensures r.Ok? <==> forall i :: 0 <= i < |rows| && IsMatchSource(rows[i].source) ==> rows[i].name in NameSet(ValuesOf(res.taxa))
    ensures r.Ok? ==> r.value.resource == res.(taxa := r.value.resource.taxa)
    ensures r.Ok? ==> DistinctKeys(r.value.resource.taxa)
    ensures r.Ok? ==> forall k :: k in KeysOf(r.value.resource.taxa) <==> k in IdSet(ValuesOf(res.taxa))
  {
    var ts := ValuesOf(res.taxa);
    var index := Index(ts);
    IndexKeys(ts);
    match ApplyRows(State(index, Buckets([], [])), rows)
    case Err(e) => Err(e)
    case Ok(st) =>
      assert forall i :: 0 <= i < |ts| ==> ts[i].Key(ScientificName) in st.index;
      Ok(Reconciled(res.(taxa := Rekey(ts, st.index)), st.buckets))
  }

  lemma IndexKeys(ts: seq<Taxon>)
    ensures Index(ts).Keys == NameSet(ts)
  {
    forall n ensures n in Index(ts) <==> n in NameSet(ts) {
      if n in NameSet(ts) {
        var t :| t in ts && t.Key(ScientificName) == n;
        var i :| 0 <= i < |ts| && ts[i] == t;
      }
    }
  }
}

=== FILE: reconciler_properties.dfy ===
/** Relational facts about the merge of matching results: where assigned
    identifiers and bucket entries come from, re-running the merge, what the
    output holds per taxon, and the conflation of shared names. */
module ReconcilerProperties {
  import opened Results
  import opened JsObject
  import opened Taxa
  import opened Reconciler

  /** The data source whose rows fill identifier `f`. */
  function SourceOf(f: string): string
    requires f == ColTaxonID || f == GbifTaxonID
  {
    if f == ColTaxonID then "1" else "11"
  }

  /** ApplyRows on a non-empty list is the first row followed by the rest. */
  lemma Unfold(st: State, rows: seq<MatchRow>)
    requires |rows| > 0 && ApplyRows(st, rows).Ok?
    ensures ApplyRow(st, rows[0]).Ok?
    ensures ApplyRows(st, rows) == ApplyRows(ApplyRow(st, rows[0]).value, rows[1..])
  {
  }

  /** An identifier that differs after the rows were applied holds the taxon
      id of some row of its own source naming that taxon (lines 185-186 and
      189-190). */
  lemma {:induction false} ChangedIdComesFromRow(st: State, rows: seq<MatchRow>, n: string, f: string)
    requires f == ColTaxonID || f == GbifTaxonID
    requires ApplyRows(st, rows).Ok? && n in st.index
    ensures ApplyRows(st, rows).value.index[n].Field(f) != st.index[n].Field(f) ==>
      exists i :: 0 <= i < |rows| && rows[i].source == SourceOf(f) && rows[i].name == n
        && ApplyRows(st, rows).value.index[n].Field(f) == Some(rows[i].taxonId)
    decreases |rows|
  {
    if |rows| > 0 {
      Unfold(st, rows);
      var next := ApplyRow(st, rows[0]).value;
      var fin := ApplyRows(st, rows).value;
      ChangedIdComesFromRow(next, rows[1..], n, f);
      StepChangesFromRow(st, rows[0], n, f);
      if fin.index[n].Field(f) != st.index[n].Field(f) {
        if fin.index[n].Field(f) != next.index[n].Field(f) {
          WitnessInTail(rows, n, f, fin.index[n].Field(f));
        }
      }
    }
  }

  lemma WitnessInTail(rows: seq<MatchRow>, n: string, f: string, v: Option<string>)
    requires f == ColTaxonID || f == GbifTaxonID
    requires |rows| > 0
    requires exists i :: 0 <= i < |rows[1..]| && rows[1..][i].source == SourceOf(f) && rows[1..][i].name == n
                         && v == Some(rows[1..][i].taxonId)
    ensures exists i :: 0 <= i < |rows| && rows[i].source == SourceOf(f) && rows[i].name == n
                        && v == Some(rows[i].taxonId)
  {
    var i :| 0 <= i < |rows[1..]| && rows[1..][i].source == SourceOf(f) && rows[1..][i].name == n
      && v == Some(rows[1..][i].taxonId);
    assert rows[i + 1] == rows[1..][i];
  }

  /** One row changes identifier `f` of taxon `n` only by writing its own id
      there, and only if it is a row of the source filling `f` naming `n`. */
  lemma StepChangesFromRow(st: State, row: MatchRow, n: string, f: string)
    requires f == ColTaxonID || f == GbifTaxonID
    requires ApplyRow(st, row).Ok? && n in st.index
    ensures ApplyRow(st, row).value.index[n].Field(f) != st.index[n].Field(f) ==>
      row.source == SourceOf(f) && row.name == n && ApplyRow(st, row).value.index[n].Field(f) == Some(row.taxonId)
  {
    if IsMatchSource(row.source) && row.name == n {
      var t := st.index[n];
      EraseIgnoresIdentifiers(t, ColTaxonID, row.taxonId);
      EraseIgnoresIdentifiers(t, GbifTaxonID, row.taxonId);
    }
  }

  /** The classification paths of the rows of one source. */
  function SourcePaths(rows: seq<MatchRow>, source: string): set<string> {
    set i | 0 <= i < |rows| && rows[i].source == source :: rows[i].path
  }

  /** The bucket of data source `source`. */
  function Bucket(b: Buckets, source: string): seq<string> {
    if source == "1" then b.col else b.gbif
  }

  /** One row adds at most its own path, and only to its own source's bucket. */
  lemma StepPaths(st: State, row: MatchRow, source: string)
    requires ApplyRow(st, row).Ok? && IsMatchSource(source)
    ensures var after := Bucket(ApplyRow(st, row).value.buckets, source);
      after == Bucket(st.buckets, source)
      || (row.source == source && after == Bucket(st.buckets, source) + [row.path])
  {
  }

  /** The paths of a list's tail are among its own, and so is its head's. */
  lemma SourcePathsTail(rows: seq<MatchRow>, source: string)
    requires |rows| > 0
    ensures SourcePaths(rows[1..], source) <= SourcePaths(rows, source)
    ensures rows[0].source == source ==> rows[0].path in SourcePaths(rows, source)
  {
    forall i | 0 <= i < |rows[1..]| && rows[1..][i].source == source
      ensures rows[1..][i].path in SourcePaths(rows, source)
    {
      assert rows[1..][i] == rows[i + 1];
    }
  }

  /** Every path added to a bucket is the classification path of a row of
      that bucket's source (lines 187 and 191). */
  lemma {:induction false} BucketEntriesComeFromRows(st: State, rows: seq<MatchRow>, source: string)
    requires ApplyRows(st, rows).Ok? && IsMatchSource(source)
    ensures var after := Bucket(ApplyRows(st, rows).value.buckets, source);
      forall j :: |Bucket(st.buckets, source)| <= j < |after| ==> after[j] in SourcePaths(rows, source)
    decreases |rows|
  {
    if |rows| > 0 {
      Unfold(st, rows);
      var next := ApplyRow(st, rows[0]).value;
      var fin := ApplyRows(next, rows[1..]).value;
      var b0, b1, b2 := Bucket(st.buckets, source), Bucket(next.buckets, source), Bucket(fin.buckets, source);
      BucketEntriesComeFromRows(next, rows[1..], source);
      StepPaths(st, rows[0], source);
      assert IsPrefix(b1, b2) by {
        assert IsPrefix(next.buckets.col, fin.buckets.col) && IsPrefix(next.buckets.gbif, fin.buckets.gbif);
      }
      SourcePathsTail(rows, source);
      NewEntriesFrom(b0, b1, b2, rows[0].path, rows[0].source == source, SourcePaths(rows, source));
      assert ApplyRows(st, rows).value == fin;
    }
  }

  /** A bucket grown by at most one path `p`, then by paths from `paths`,
      gains only paths from `paths` when `p` is one of them. */
  lemma NewEntriesFrom(b0: seq<string>, b1: seq<string>, b2: seq<string>, p: string, added: bool, paths: set<string>)
    requires b1 == b0 || (added && b1 == b0 + [p])
    requires added ==> p in paths
    requires IsPrefix(b1, b2)
    requires forall j :: |b1| <= j < |b2| ==> b2[j] in paths
    ensures forall j :: |b0| <= j < |b2| ==> b2[j] in paths
  {
    forall j | |b0| <= j < |b2| ensures b2[j] in paths {
      if j < |b1| {
        assert b2[j] == b1[j] == p;
      }
    }
  }

  /** When the loop throws, it names a row of source '1' or '11' whose name
      is not indexed. */
  lemma {:induction false} FaultNamesUnknownTaxon(st: State, rows: seq<MatchRow>)
    requires ApplyRows(st, rows).Err?
    ensures exists i :: (0 <= i < |rows| && IsMatchSource(rows[i].source) && rows[i].name !in st.index
      && ApplyRows(st, rows).fault == NoTaxonNamed(rows[i].name))
    decreases |rows|
  {
    assert |rows| > 0;
    if ApplyRow(st, rows[0]).Ok? {
      var next := ApplyRow(st, rows[0]).value;
      FaultNamesUnknownTaxon(next, rows[1..]);
      var i :| 0 <= i < |rows[1..]| && IsMatchSource(rows[1..][i].source) && rows[1..][i].name !in next.index
        && ApplyRows(next, rows[1..]).fault == NoTaxonNamed(rows[1..][i].name);
      assert rows[i + 1] == rows[1..][i];
    }
  }

  /** A row that would change nothing if applied again: its taxon is indexed
      and its identifier is truthy, or already holds the row's id, or (for
      source '11') the rank is not eligible. */
  predicate Settled(index: map<string, Taxon>, row: MatchRow) {
    Resolvable(index, row)
    && (row.source == "1" ==>
          index[row.name].Truthy(ColTaxonID) || index[row.name].Field(ColTaxonID) == Some(row.taxonId))
    && (row.source == "11" ==>
          !index[row.name].HasGbifRank() || index[row.name].Truthy(GbifTaxonID)
          || index[row.name].Field(GbifTaxonID) == Some(row.taxonId))
  }

  lemma {:induction false} SettledRowsChangeNothing(index: map<string, Taxon>, b: Buckets, rows: seq<MatchRow>)
    requires forall i :: 0 <= i < |rows| ==> Settled(index, rows[i])
    ensures ApplyRows(State(index, b), rows).Ok?
    ensures ApplyRows(State(index, b), rows).value.index == index
    decreases |rows|
  {
    if |rows| > 0 {
      var row := rows[0];
      assert Settled(index, row);
      var next := ApplyRow(State(index, b), row).value;
      if IsMatchSource(row.source) {
        var t := index[row.name];
        assert t.Set(ColTaxonID, row.taxonId) == t || t.Truthy(ColTaxonID) || row.source != "1";
        assert t.Set(GbifTaxonID, row.taxonId) == t || t.Truthy(GbifTaxonID) || !t.HasGbifRank() || row.source != "11";
        assert index[row.name := t] == index;
      }
      assert next.index == index;
      assert forall i :: 0 <= i < |rows[1..]| ==> rows[1..][i] == rows[i + 1];
      SettledRowsChangeNothing(index, next.buckets, rows[1..]);
    }
  }

  /** After the rows have been applied once, every one of them is settled. */
  lemma {:induction false} AppliedRowsAreSettled(st: State, rows: seq<MatchRow>)
    requires ApplyRows(st, rows).Ok?
    ensures forall i :: 0 <= i < |rows| ==> Settled(ApplyRows(st, rows).value.index, rows[i])
    decreases |rows|
  {
    if |rows| > 0 {
      Unfold(st, rows);
      var row := rows[0];
      var next := ApplyRow(st, row).value;
      var fin := ApplyRows(st, rows).value;
      AppliedRowsAreSettled(next, rows[1..]);
      assert forall i :: 1 <= i < |rows| ==> rows[i] == rows[1..][i - 1];
      FirstRowSettled(st, row, fin);
    }
  }

  /** A row just applied is settled, and stays so through later enrichment. */
  lemma FirstRowSettled(st: State, row: MatchRow, fin: State)
    requires ApplyRow(st, row).Ok?
    requires fin.index.Keys == st.index.Keys
    requires forall n :: n in st.index ==> Enriches(ApplyRow(st, row).value.index[n], fin.index[n])
    ensures Settled(fin.index, row)
  {
    var next := ApplyRow(st, row).value;
    if IsMatchSource(row.source) {
      var n := row.name;
      EnrichesKeepsKey(next.index[n], fin.index[n], TaxonRank);
      EnrichesKeepsKey(st.index[n], next.index[n], TaxonRank);
    }
  }

  /** Re-applying the same rows to the merged index changes no taxon:
      enrichment is idempotent. */
  lemma ApplyRowsIdempotent(st: State, rows: seq<MatchRow>, b: Buckets)
    requires ApplyRows(st, rows).Ok?
    ensures ApplyRows(State(ApplyRows(st, rows).value.index, b), rows).Ok?
    ensures ApplyRows(State(ApplyRows(st, rows).value.index, b), rows).value.index == ApplyRows(st, rows).value.index
  {
    AppliedRowsAreSettled(st, rows);
    SettledRowsChangeNothing(ApplyRows(st, rows).value.index, b, rows);
  }

  /** The merged index `Reconcile` computes, for stating facts about it. */
  function Merged(res: Resource, rows: seq<MatchRow>): map<string, Taxon>
    requires Reconcile(res, rows).Ok?
  {
    ApplyRows(State(Index(ValuesOf(res.taxa)), Buckets([], [])), rows).value.index
  }

  /** Every output key holds an enriched copy of a parsed taxon: the last one
      sharing a name with the last taxon carrying that key. Only the two
      identifiers differ from it, a truthy identifier is kept, and the GBIF
      identifier is untouched for a rank outside GBIF_RANKS. */
  lemma OutputEnrichesInput(res: Resource, rows: seq<MatchRow>, k: string)
    requires Reconcile(res, rows).Ok?
    requires k in KeysOf(Reconcile(res, rows).value.resource.taxa)
    ensures var ts := ValuesOf(res.taxa);
      var owner := LastWith(ts, ScientificNameID, k).value;
      var source := LastWith(ts, ScientificName, owner.Key(ScientificName)).value;
      && Lookup(Reconcile(res, rows).value.resource.taxa, k).Some?
      && Enriches(source, Lookup(Reconcile(res, rows).value.resource.taxa, k).value)
  {
    var ts := ValuesOf(res.taxa);
    IndexKeys(ts);
    var owner := LastWith(ts, ScientificNameID, k).value;
    assert owner.Key(ScientificName) in NameSet(ts);
  }

  /** The parsed taxa have pairwise distinct scientific names and pairwise
      distinct scientificNameIDs. */
  predicate Unique(ts: seq<Taxon>) {
    forall i, j :: 0 <= i < j < |ts| ==>
      ts[i].Key(ScientificName) != ts[j].Key(ScientificName)
      && ts[i].Key(ScientificNameID) != ts[j].Key(ScientificNameID)
  }

  lemma {:induction false} LastOfUnique(ts: seq<Taxon>, f: string, i: int)
    requires 0 <= i < |ts|
    requires forall a, b :: 0 <= a < b < |ts| ==> ts[a].Key(f) != ts[b].Key(f)
    ensures LastWith(ts, f, ts[i].Key(f)) == Some(ts[i])
  {
    var n := |ts| - 1;
    if i < n {
      LastOfUnique(ts[..n], f, i);
    }
  }

  /** With distinct names and ids the output lists the taxa in input order,
      each under its scientificNameID, each an enriched copy of itself. */
  lemma {:induction false} ReconcileUnique(res: Resource, rows: seq<MatchRow>)
    requires Reconcile(res, rows).Ok? && Unique(ValuesOf(res.taxa))
    ensures var ts := ValuesOf(res.taxa);
      var out := Reconcile(res, rows).value.resource.taxa;
      && |out| == |ts|
      && forall i :: 0 <= i < |ts| ==> out[i].0 == ts[i].Key(ScientificNameID) && Enriches(ts[i], out[i].1)
  {
    var ts := ValuesOf(res.taxa);
    var merged := Merged(res, rows);
    IndexKeys(ts);
    var es := RekeyEntries(ts, merged);
    assert DistinctKeys(es);
    FromDistinctEntries(es);
    forall i | 0 <= i < |ts| ensures Enriches(ts[i], es[i].1) {
      LastOfUnique(ts, ScientificName, i);
    }
  }

  /** Two taxa sharing a scientific name, each the last of its own
      scientificNameID, end up under their own keys with one and the same
      record: the merged copy of the later of them (the
      conflation nothing in the tool guards against). */
  lemma SharedNameConflates(res: Resource, rows: seq<MatchRow>, i: int, j: int)
    requires Reconcile(res, rows).Ok?
    requires 0 <= i < j < |res.taxa|
    requires LastAt(ValuesOf(res.taxa), ScientificNameID, res.taxa[i].1.Key(ScientificNameID), i)
    requires LastAt(ValuesOf(res.taxa), ScientificNameID, res.taxa[j].1.Key(ScientificNameID), j)
    requires res.taxa[i].1.Key(ScientificName) == res.taxa[j].1.Key(ScientificName)
    ensures var out := Reconcile(res, rows).value.resource.taxa;
      && Lookup(out, res.taxa[i].1.Key(ScientificNameID)) == Lookup(out, res.taxa[j].1.Key(ScientificNameID))
      && Lookup(out, res.taxa[i].1.Key(ScientificNameID)).Some?
  {
    OutputIsRekeyed(res, rows);
    RekeySharedName(res.taxa, Merged(res, rows), i, j);
  }

  lemma RekeySharedName(es: Entries<Taxon>, merged: map<string, Taxon>, i: int, j: int)
    requires forall a :: 0 <= a < |es| ==> es[a].1.Key(ScientificName) in merged
    requires 0 <= i < j < |es|
    requires LastAt(ValuesOf(es), ScientificNameID, es[i].1.Key(ScientificNameID), i)
    requires LastAt(ValuesOf(es), ScientificNameID, es[j].1.Key(ScientificNameID), j)
    requires es[i].1.Key(ScientificName) == es[j].1.Key(ScientificName)
    ensures Lookup(Rekey(ValuesOf(es), merged), es[i].1.Key(ScientificNameID)) == Lookup(Rekey(ValuesOf(es), merged), es[j].1.Key(ScientificNameID))
    ensures Lookup(Rekey(ValuesOf(es), merged), es[i].1.Key(ScientificNameID)).Some?
  {
    var ts := ValuesOf(es);
    assert ts[i] == es[i].1 && ts[j] == es[j].1;
    LastWithAt(ts, ScientificNameID, es[i].1.Key(ScientificNameID), i);
    LastWithAt(ts, ScientificNameID, es[j].1.Key(ScientificNameID), j);
  }

  /** The merge's output is the re-keying of the merged index. */
  lemma OutputIsRekeyed(res: Resource, rows: seq<MatchRow>)
    requires Reconcile(res, rows).Ok?
    ensures forall i :: 0 <= i < |res.taxa| ==> res.taxa[i].1.Key(ScientificName) in Merged(res, rows)
    ensures Reconcile(res, rows).value.resource.taxa == Rekey(ValuesOf(res.taxa), Merged(res, rows))
  {
    var ts := ValuesOf(res.taxa);
    IndexKeys(ts);
    assert Merged(res, rows).Keys == NameSet(ts);
    forall i | 0 <= i < |res.taxa| ensures res.taxa[i].1.Key(ScientificName) in Merged(res, rows) {
      assert ts[i] == res.taxa[i].1;
      assert ts[i] in ts;
    }
  }

  /** The rank gate of line 189: a taxon whose rank is not in GBIF_RANKS
      leaves with the GBIF identifier it came with. */
  lemma IneligibleRankKeepsGbifId(res: Resource, rows: seq<MatchRow>, i: int)
    requires Reconcile(res, rows).Ok? && Unique(ValuesOf(res.taxa))
    requires 0 <= i < |res.taxa| && !res.taxa[i].1.HasGbifRank()
    ensures |Reconcile(res, rows).value.resource.taxa| == |res.taxa|
    ensures Reconcile(res, rows).value.resource.taxa[i].1.Field(GbifTaxonID) == res.taxa[i].1.Field(GbifTaxonID)
  {
    ReconcileUnique(res, rows);
    assert ValuesOf(res.taxa)[i] == res.taxa[i].1;
  }

  /** The rank gate without distinct names: a taxon of a rank outside
      GBIF_RANKS that is the last one of its name and the last one of its
      scientificNameID is output under its id with the GBIF identifier it
      came with. An earlier taxon of a shared name gets the later one's
      record instead (`SharedNameConflates`). */
  lemma IneligibleLastOfNameKeepsGbifId(res: Resource, rows: seq<MatchRow>, i: int)
    requires Reconcile(res, rows).Ok?
    requires 0 <= i < |res.taxa| && !res.taxa[i].1.HasGbifRank()
    requires LastAt(ValuesOf(res.taxa), ScientificName, res.taxa[i].1.Key(ScientificName), i)
    requires LastAt(ValuesOf(res.taxa), ScientificNameID, res.taxa[i].1.Key(ScientificNameID), i)
    ensures var out := Reconcile(res, rows).value.resource.taxa;
      && Lookup(out, res.taxa[i].1.Key(ScientificNameID)).Some?
      && Lookup(out, res.taxa[i].1.Key(ScientificNameID)).value.Field(GbifTaxonID) == res.taxa[i].1.Field(GbifTaxonID)
  {
    var ts := ValuesOf(res.taxa);
    var t := res.taxa[i].1;
    assert ts[i] == t;
    assert t in ts;
    var k := t.Key(ScientificNameID);
    assert k in IdSet(ts);
    LastWithAt(ts, ScientificNameID, k, i);
    LastWithAt(ts, ScientificName, t.Key(ScientificName), i);
    OutputEnrichesInput(res, rows, k);
  }

  /** The last position holding a value is the one `LastWith` finds. */
  lemma LastWithAt(ts: seq<Taxon>, f: string, k: string, i: int)
    requires LastAt(ts, f, k, i)
    ensures LastWith(ts, f, k) == Some(ts[i])
  {
    var r := LastWith(ts, f, k);
    assert r.Some? by {
      assert ts[i].Key(f) == k;
    }
    var j :| LastAt(ts, f, k, j) && ts[j] == r.value;
    assert ts[j].Key(f) == k;
    assert i == j;
  }

  /** Neither "phylum" nor "form" is in GBIF_RANKS (the list spells the
      former "phyllum"), so neither rank ever passes the gate. */
  lemma PhylumAndFormAreIneligible(t: Taxon)
    requires t.Field(TaxonRank) == Some("phylum") || t.Field(TaxonRank) == Some("form")
    ensures !t.HasGbifRank()
  {
    assert "phylum" != GbifRanks[1];
  }

  /** Running the merge again on its own output with the same rows gives back
      the same resource, provided names and ids are distinct; `SharedNameConflates` shows why
      shared names are excluded. */
  lemma ReconcileIdempotent(res: Resource, rows: seq<MatchRow>)
    requires Reconcile(res, rows).Ok? && Unique(ValuesOf(res.taxa))
    ensures var once := Reconcile(res, rows).value.resource;
      Reconcile(once, rows).Ok? && Reconcile(once, rows).value.resource == once
  {
    var ts := ValuesOf(res.taxa);
    var index := Index(ts);
    var merged := Merged(res, rows);
    IndexKeys(ts);
    var es := RekeyEntries(ts, merged);
    FromDistinctEntries(es);
    var once := Reconcile(res, rows).value.resource;
    assert once.taxa == es;
    forall i | 0 <= i < |ts| ensures Enriches(ts[i], merged[ts[i].Key(ScientificName)]) {
      LastOfUnique(ts, ScientificName, i);
    }
    ReindexMerged(ts, merged);
    ApplyRowsIdempotent(State(index, Buckets([], [])), rows, Buckets([], []));
    var again := ApplyRows(State(merged, Buckets([], [])), rows).value;
    assert Reconcile(once, rows) == Ok(Reconciled(once.(taxa := Rekey(ValuesOf(es), again.index)), again.buckets));
  }

  /** Indexing the re-keyed merged taxa by name gives back the merged index,
      and re-keying them again gives the same entries. */
  lemma ReindexMerged(ts: seq<Taxon>, merged: map<string, Taxon>)
    requires Unique(ts)
    requires merged.Keys == NameSet(ts)
    requires forall i :: 0 <= i < |ts| ==> ts[i].Key(ScientificName) in merged && Enriches(ts[i], merged[ts[i].Key(ScientificName)])
    ensures var ts1 := ValuesOf(RekeyEntries(ts, merged));
      && (forall i :: 0 <= i < |ts1| ==> ts1[i].Key(ScientificName) in merged)
      && Index(ts1) == merged
      && RekeyEntries(ts1, merged) == RekeyEntries(ts, merged)
  {
    var ts1 := ValuesOf(RekeyEntries(ts, merged));
    MergedKeepsKeys(ts, merged, ts1);
    SameKeys(ts, ts1);
    RekeyAgain(ts, ts1, merged);
    IndexOfUnique(ts1);
    SameIndex(ts, merged, ts1, Index(ts1));
  }

  /** A map keyed by the names of `ts1` that holds each of them under its own
      name is the merged index. */
  lemma SameIndex(ts: seq<Taxon>, merged: map<string, Taxon>, ts1: seq<Taxon>, m: map<string, Taxon>)
    requires |ts1| == |ts|
    requires merged.Keys == NameSet(ts) && NameSet(ts1) == NameSet(ts) && m.Keys == NameSet(ts1)
    requires forall i :: 0 <= i < |ts| ==> ts1[i] == merged[ts[i].Key(ScientificName)] && ts1[i].Key(ScientificName) == ts[i].Key(ScientificName)
    requires forall i :: 0 <= i < |ts1| ==> m[ts1[i].Key(ScientificName)] == ts1[i]
    ensures m == merged
  {
    forall n | n in m ensures m[n] == merged[n] {
      var t :| t in ts1 && t.Key(ScientificName) == n;
      var i :| 0 <= i < |ts1| && ts1[i] == t;
    }
  }

  lemma MergedKeepsKeys(ts: seq<Taxon>, merged: map<string, Taxon>, ts1: seq<Taxon>)
    requires forall i :: 0 <= i < |ts| ==> ts[i].Key(ScientificName) in merged && Enriches(ts[i], merged[ts[i].Key(ScientificName)])
    requires ts1 == ValuesOf(RekeyEntries(ts, merged))
    ensures |ts1| == |ts|
    ensures forall i :: 0 <= i < |ts| ==> ts1[i] == merged[ts[i].Key(ScientificName)]
    ensures forall i :: 0 <= i < |ts| ==>
      ts1[i].Key(ScientificName) == ts[i].Key(ScientificName) && ts1[i].Key(ScientificNameID) == ts[i].Key(ScientificNameID)
  {
    forall i | 0 <= i < |ts|
      ensures ts1[i].Key(ScientificName) == ts[i].Key(ScientificName)
      ensures ts1[i].Key(ScientificNameID) == ts[i].Key(ScientificNameID)
    {
      EnrichesKeepsKey(ts[i], ts1[i], ScientificName);
      EnrichesKeepsKey(ts[i], ts1[i], ScientificNameID);
    }
  }

  lemma RekeyAgain(ts: seq<Taxon>, ts1: seq<Taxon>, merged: map<string, Taxon>)
    requires |ts1| == |ts|
    requires forall i :: 0 <= i < |ts| ==> ts[i].Key(ScientificName) in merged
    requires forall i :: 0 <= i < |ts| ==>
      ts1[i].Key(ScientificName) == ts[i].Key(ScientificName) && ts1[i].Key(ScientificNameID) == ts[i].Key(ScientificNameID)
    ensures forall i :: 0 <= i < |ts1| ==> ts1[i].Key(ScientificName) in merged
    ensures RekeyEntries(ts1, merged) == RekeyEntries(ts, merged)
  {
  }

  /** Taxa with the same names and ids position by position. */
  lemma SameKeys(ts: seq<Taxon>, ts1: seq<Taxon>)
    requires |ts1| == |ts| && Unique(ts)
    requires forall i :: 0 <= i < |ts| ==>
      ts1[i].Key(ScientificName) == ts[i].Key(ScientificName) && ts1[i].Key(ScientificNameID) == ts[i].Key(ScientificNameID)
    ensures Unique(ts1) && NameSet(ts1) == NameSet(ts)
  {
    forall n ensures n in NameSet(ts1) <==> n in NameSet(ts) {
      if n in NameSet(ts) {
        var t :| t in ts && t.Key(ScientificName) == n;
        var i :| 0 <= i < |ts| && ts[i] == t;
        assert ts1[i] in ts1;
      }
      if n in NameSet(ts1) {
        var t :| t in ts1 && t.Key(ScientificName) == n;
        var i :| 0 <= i < |ts1| && ts1[i] == t;
        assert ts[i] in ts;
      }
    }
  }

  /** With distinct names, the index holds every taxon under its own name. */
  lemma IndexOfUnique(ts: seq<Taxon>)
    requires forall a, b :: 0 <= a < b < |ts| ==> ts[a].Key(ScientificName) != ts[b].Key(ScientificName)
    ensures Index(ts).Keys == NameSet(ts)
    ensures forall i :: 0 <= i < |ts| ==> Index(ts)[ts[i].Key(ScientificName)] == ts[i]
  {
    IndexKeys(ts);
    forall i | 0 <= i < |ts| ensures Index(ts)[ts[i].Key(ScientificName)] == ts[i] {
      LastOfUnique(ts, ScientificName, i);
    }
  }
}

=== FILE: results.dfy ===
/** Failure-carrying values shared by the whole model.

    The resource tool has no error values of its own: the two ways its core
    can fail are TypeErrors thrown by the JavaScript engine, which nothing
    catches, so the process ends. `Fault` names those two cases.
 */
module Results {

  datatype Option<+T> = None | Some(value: T)

  /** The uncaught TypeErrors of the core. */
  datatype Fault =
      /** A match row of source '1' or '11' names no taxon of the resource, so
          the name index yields `undefined` and reading its identifier throws. */
    | NoTaxonNamed(name: string)
      /** A classification bucket joins to the empty text, PREFIX_PATTERN does
          not match, and reading group 1 of `null` throws. */
    | EmptyBucket(source: string)

  datatype Result<+T> = Ok(value: T) | Err(fault: Fault)
}

=== FILE: review.dfy ===
/** The interactive review of one work's resources (`getMatchedResources`,
    tools/resources/index.js lines 207-247), with its inputs made explicit:
    `parse(k)` is what parsing the work yields on the k-th attempt (a retry
    parses again, so the operator may have edited the file), each pending
    resource carries the rows the matching service returns for it and the
    output of the search of the skip ledger, and `answers` are the
    operator's replies to the prompts, in order.

    The loop itself runs over each resource's triage: what matching, the
    ledger search and the consistency check make of it before any question
    is asked. */
module Review {
  import opened Results
  import opened Text
  import opened Taxa
  import opened Reconciler
  import opened Checker

  /** One parsed resource with what the outside world says about it. */
  datatype Parsed = Parsed(resource: Resource, rows: seq<MatchRow>, ledger: string)

  /** What happens to a resource before the prompt loop. */
  datatype Triaged =
      /** `matchNames` or `checkResults` throws. */
    | Crash(fault: Fault)
      /** The ledger already names it: it is pushed without a question. */
    | Listed(resource: Resource)
      /** The operator is asked about it. */
    | Prompted(resource: Resource)

  datatype Status =
      /** The list returned, from the given parse attempt. */
    | Accepted(resources: seq<Resource>, attempt: nat)
      /** An uncaught TypeError. */
    | Crashed(fault: Fault)
      /** A prompt is open and no answer is left. */
    | AwaitingAnswer

  /** How the review ends, with the lines appended to the skip ledger. */
  datatype Outcome = Outcome(status: Status, appended: seq<string>)

  /** `shouldBeSkipped` (lines 105-114): the search output has more than two
      pieces when split at newlines. */
  predicate LedgerHit(output: string) {
    |Split(output, '\n')| > 2
  }

  /** The record appended to the ledger when a resource is skipped, as
      written: no newline ends it, and the reason sits between doubled
      quotes. */
  function LedgerLine(workId: string, id: string, reason: string): string {
    workId + "," + id + ",\"\"" + reason + "\"\""
  }

  /** `choice[0]` is 's' or 'S'. */
  predicate IsSkip(choice: string) {
    |choice| > 0 && (choice[0] == 's' || choice[0] == 'S')
  }

  /** `choice[0]` is 'r' or 'R'. */
  predicate IsRetry(choice: string) {
    |choice| > 0 && (choice[0] == 'r' || choice[0] == 'R')
  }

  /** Lines 210-216: match the resource, search the ledger, and unless it is
      listed there run the consistency check. The pass's verdict is dropped:
      only whether it throws matters. */
  function Triage(p: Parsed): (t: Triaged)
    ensures t.Crash? <==> (Reconcile(p.resource, p.rows).Err?
      || (!LedgerHit(p.ledger) && Check(Reconcile(p.resource, p.rows).value).Err?))
    ensures !t.Crash? ==> t.resource == Reconcile(p.resource, p.rows).value.resource
    ensures t.Listed? <==> Reconcile(p.resource, p.rows).Ok? && LedgerHit(p.ledger)
  {
    match Reconcile(p.resource, p.rows)
    case Err(f) => Crash(f)
    case Ok(rec) =>
      if LedgerHit(p.ledger) then Listed(rec.resource)
      else
        match Check(rec)
        case Err(f) => Crash(f)
        case Ok(_) => Prompted(rec.resource)
  }

  function TriageAll(ps: seq<Parsed>): (ts: seq<Triaged>)
    ensures |ts| == |ps|
    ensures forall i :: 0 <= i < |ps| ==> ts[i] == Triage(ps[i])
  {
    seq(|ps|, i requires 0 <= i < |ps| => Triage(ps[i]))
  }

  /** `getMatchedResources` from the first parse, with an empty ledger
      history. A returned list means that no resource of the final attempt
      threw: each of them is in the list, once or (when the operator was
      asked about it) twice, and nothing else is. */
  function GetMatchedResources(parse: nat -> seq<Parsed>, answers: seq<string>): (o: Outcome)
    ensures o.status.Accepted? ==> o.status.resources == Expected(TriageAll(parse(o.status.attempt)))
    ensures o.status.Accepted? ==> forall j :: 0 <= j < |parse(o.status.attempt)| ==> !Triage(parse(o.status.attempt)[j]).Crash?
    ensures o.status.Accepted? ==>
      && |o.status.resources| == |parse(o.status.attempt)| + PromptedCount(TriageAll(parse(o.status.attempt)))
      && forall r :: r in o.status.resources <==>
           exists j :: 0 <= j < |parse(o.status.attempt)| && Triage(parse(o.status.attempt)[j]).resource == r
  {
    var batches := (k: nat) => TriageAll(parse(k));
    ReviewAccepts(batches, 0, 0, [], answers, []);
    assert batches(0)[0..] == batches(0);
    var o := Review(batches, 0, 0, [], answers, []);
    if o.status.Accepted? then
      var ts := TriageAll(parse(o.status.attempt));
      ExpectedCovers(ts);
      o
    else o
  }

  /** No resource of the run throws. */
  predicate NoCrash(ts: seq<Triaged>) {
    forall j :: 0 <= j < |ts| ==> !ts[j].Crash?
  }

  lemma NoCrashStep(ts: seq<Triaged>, i: nat)
    requires i < |ts| && !ts[i].Crash? && NoCrash(ts[i + 1..])
    ensures NoCrash(ts[i..])
  {
    forall j | 0 <= j < |ts[i..]| ensures !ts[i..][j].Crash? {
      if j > 0 {
        assert ts[i..][j] == ts[i + 1..][j - 1];
      }
    }
  }

  /** The loop over the resources of attempt `k` from the `i`-th on, `acc`
      holding what has been pushed so far. Lines are only ever appended to
      the ledger, and attempts only move forward. */
  function Review(batches: nat -> seq<Triaged>, k: nat, i: nat, acc: seq<Resource>,
                  answers: seq<string>, appended: seq<string>): (o: Outcome)
    requires i <= |batches(k)|
    ensures appended <= o.appended
    ensures o.status.Accepted? ==> o.status.attempt >= k
    decreases |answers|, |batches(k)| - i, 1
  {
    if i == |batches(k)| then Outcome(Accepted(acc, k), appended)
    else
      match batches(k)[i]
      case Crash(f) => Outcome(Crashed(f), appended)
      case Listed(r) => Review(batches, k, i + 1, acc + [r], answers, appended)
      case Prompted(r) => Ask(batches, k, i, acc, r, answers, appended)
  }

  /** The prompt loop for the `i`-th resource, whose matched form is
      `current`. */
  function Ask(batches: nat -> seq<Triaged>, k: nat, i: nat, acc: seq<Resource>, current: Resource,
               answers: seq<string>, appended: seq<string>): (o: Outcome)
    requires i < |batches(k)|
    ensures appended <= o.appended
    ensures o.status.Accepted? ==> o.status.attempt >= k
    decreases |answers|, |batches(k)| - i, 0
  {
    if |answers| == 0 then Outcome(AwaitingAnswer, appended)
    else if IsSkip(answers[0]) then
      if |answers| == 1 then Outcome(AwaitingAnswer, appended)
      else
        var line := LedgerLine(current.workId, current.id, answers[1]);
        Review(batches, k, i + 1, acc + [current, current], answers[2..], appended + [line])
    else if IsRetry(answers[0]) then Review(batches, k + 1, 0, [], answers[1..], appended)
    else Ask(batches, k, i, acc, current, answers[1..], appended)
  }

  /** What a run of triaged resources contributes to the returned list when
      every one of them gets through: a listed resource once, a prompted one
      (which can only leave the prompt by being skipped) twice. */
  function Expected(ts: seq<Triaged>): seq<Resource> {
    if |ts| == 0 then [] else Copies(ts[0]) + Expected(ts[1..])
  }

  function Copies(t: Triaged): seq<Resource> {
    match t
    case Crash(_) => []
    case Listed(r) => [r]
    case Prompted(r) => [r, r]
  }

  lemma ExpectedStep(ts: seq<Triaged>, i: nat)
    requires i < |ts|
    ensures Expected(ts[i..]) == Copies(ts[i]) + Expected(ts[i + 1..])
  {
    assert ts[i..][1..] == ts[i + 1..];
  }

  /** Whatever the answers, a review that returns a list returns exactly the
      expected copies of the resources of its final attempt: those already
      pushed plus the rest if it never retried, all of the attempt it retried
      to otherwise. None of those resources threw. */
  lemma {:induction false} ReviewAccepts(batches: nat -> seq<Triaged>, k: nat, i: nat, acc: seq<Resource>,
                                         answers: seq<string>, appended: seq<string>)
    requires i <= |batches(k)|
    ensures var o := Review(batches, k, i, acc, answers, appended);
      o.status.Accepted? ==>
        && (o.status.attempt == k ==> o.status.resources == acc + Expected(batches(k)[i..]))
        && (o.status.attempt > k ==> o.status.resources == Expected(batches(o.status.attempt)))
        && (o.status.attempt == k ==> NoCrash(batches(k)[i..]))
        && (o.status.attempt > k ==> NoCrash(batches(o.status.attempt)))
    decreases |answers|, |batches(k)| - i, 1
  {
    if i < |batches(k)| {
      ExpectedStep(batches(k), i);
      match batches(k)[i]
      case Crash(_) =>
      case Listed(r) =>
        ReviewAccepts(batches, k, i + 1, acc + [r], answers, appended);
        assert acc + [r] + Expected(batches(k)[i + 1..]) == acc + Expected(batches(k)[i..]);
        var o := Review(batches, k, i + 1, acc + [r], answers, appended);
        if o.status.Accepted? && o.status.attempt == k {
          NoCrashStep(batches(k), i);
        }
      case Prompted(r) =>
        AskAccepts(batches, k, i, acc, r, answers, appended);
    } else {
      assert batches(k)[i..] == [];
    }
  }

  lemma {:induction false} AskAccepts(batches: nat -> seq<Triaged>, k: nat, i: nat, acc: seq<Resource>, current: Resource,
                                      answers: seq<string>, appended: seq<string>)
    requires i < |batches(k)| && Copies(batches(k)[i]) == [current, current]
    ensures var o := Ask(batches, k, i, acc, current, answers, appended);
      o.status.Accepted? ==>
        && (o.status.attempt == k ==> o.status.resources == acc + Expected(batches(k)[i..]))
        && (o.status.attempt > k ==> o.status.resources == Expected(batches(o.status.attempt)))
        && (o.status.attempt == k ==> NoCrash(batches(k)[i..]))
        && (o.status.attempt > k ==> NoCrash(batches(o.status.attempt)))
    decreases |answers|, |batches(k)| - i, 0
  {
    if |answers| > 0 {
      if IsSkip(answers[0]) {
        if |answers| > 1 {
          var line := LedgerLine(current.workId, current.id, answers[1]);
          ExpectedStep(batches(k), i);
          assert acc + [current, current] + Expected(batches(k)[i + 1..]) == acc + Expected(batches(k)[i..]);
          ReviewAccepts(batches, k, i + 1, acc + [current, current], answers[2..], appended + [line]);
          var o := Review(batches, k, i + 1, acc + [current, current], answers[2..], appended + [line]);
          if o.status.Accepted? && o.status.attempt == k {
            NoCrashStep(batches(k), i);
          }
        }
      } else if IsRetry(answers[0]) {
        ReviewAccepts(batches, k + 1, 0, [], answers[1..], appended);
        assert batches(k + 1)[0..] == batches(k + 1);
      } else {
        AskAccepts(batches, k, i, acc, current, answers[1..], appended);
      }
    }
  }

  /** How many of the triaged resources are put to the operator. */
  function PromptedCount(ts: seq<Triaged>): nat {
    if |ts| == 0 then 0 else (if ts[0].Prompted? then 1 else 0) + PromptedCount(ts[1..])
  }

  /** When nothing crashes, the expected list holds every triaged resource
      and nothing else: once for each resource, and once more for each one
      the operator is asked about. */
  lemma {:induction false} ExpectedCovers(ts: seq<Triaged>)
    requires forall i :: 0 <= i < |ts| ==> !ts[i].Crash?
    ensures |Expected(ts)| == |ts| + PromptedCount(ts)
    ensures forall r :: r in Expected(ts) <==> exists i :: 0 <= i < |ts| && ts[i].resource == r
    decreases |ts|
  {
    if |ts| > 0 {
      ExpectedCovers(ts[1..]);
      assert forall r :: r in Copies(ts[0]) <==> r == ts[0].resource;
      forall r ensures r in Expected(ts) <==> exists i :: 0 <= i < |ts| && ts[i].resource == r {
        if r in Expected(ts[1..]) {
          var i :| 0 <= i < |ts[1..]| && ts[1..][i].resource == r;
          assert ts[i + 1].resource == r;
        }
        if exists i :: 0 <= i < |ts| && ts[i].resource == r {
          var i :| 0 <= i < |ts| && ts[i].resource == r;
          if i > 0 {
            assert ts[1..][i - 1].resource == r;
          }
        }
      }
    }
  }

  /** The ledger search counts as a hit exactly when its output holds at
      least two newlines: a header line and a matching record, each ended. */
  lemma LedgerHitIsTwoNewlines(output: string)
    ensures LedgerHit(output) <==> Count(output, '\n') >= 2
  {
    SplitLength(output, '\n');
  }

  /** The skip record's second comma-separated column is the resource id,
      provided neither identifier holds a comma. That is the column the
      ledger search looks in, when the record starts a line of the ledger. */
  lemma LedgerLineNamesTheResource(workId: string, id: string, reason: string)
    requires ',' !in workId && ',' !in id
    ensures |Split(LedgerLine(workId, id, reason), ',')| >= 3
    ensures Split(LedgerLine(workId, id, reason), ',')[0] == workId
    ensures Split(LedgerLine(workId, id, reason), ',')[1] == id
  {
    var tail := "\"\"" + reason + "\"\"";
    assert LedgerLine(workId, id, reason) == workId + [','] + (id + [','] + tail);
    SplitAfterSeparator(workId, id + [','] + tail, ',');
    SplitAfterSeparator(id, tail, ',');
  }

  /** The operator is asked about every matched resource not in the ledger,
      even one that passed the consistency check: the verdict is computed
      and never read. Only a crash while computing it spares the prompt. */
  lemma VerdictIsIgnored(p: Parsed)
    requires Reconcile(p.resource, p.rows).Ok? && !LedgerHit(p.ledger)
    ensures var rec := Reconcile(p.resource, p.rows).value;
      && (Check(rec) == Ok(true) ==> Triage(p) == Prompted(rec.resource))
      && (Check(rec) == Ok(false) ==> Triage(p) == Prompted(rec.resource))
      && (Check(rec).Err? ==> Triage(p) == Crash(Check(rec).fault))
  {
  }

  /** A prompted resource with no answer left leaves the review waiting. */
  lemma PromptWaitsForAnAnswer(batches: nat -> seq<Triaged>, k: nat, i: nat, acc: seq<Resource>, appended: seq<string>)
    requires i < |batches(k)| && batches(k)[i].Prompted?
    ensures Review(batches, k, i, acc, [], appended) == Outcome(AwaitingAnswer, appended)
  {
  }

  /** An answer that starts with neither 's', 'S', 'r' nor 'R' (the empty
      answer included) is dropped and the question asked again. */
  lemma NoiseIsReasked(batches: nat -> seq<Triaged>, k: nat, i: nat, acc: seq<Resource>, current: Resource,
                       a: string, answers: seq<string>, appended: seq<string>)
    requires i < |batches(k)|
    requires !IsSkip(a) && !IsRetry(a)
    ensures Ask(batches, k, i, acc, current, [a] + answers, appended) == Ask(batches, k, i, acc, current, answers, appended)
  {
    assert ([a] + answers)[1..] == answers;
  }

  /** A skip takes the following answer as its reason and appends exactly one
      record, naming the resource; the resource is then pushed twice. */
  lemma SkipAppendsOneRecord(batches: nat -> seq<Triaged>, k: nat, i: nat, acc: seq<Resource>, current: Resource,
                             a: string, reason: string, answers: seq<string>, appended: seq<string>)
    requires i < |batches(k)|
    requires IsSkip(a)
    ensures Ask(batches, k, i, acc, current, [a, reason] + answers, appended)
         == Review(batches, k, i + 1, acc + [current, current], answers, appended + [LedgerLine(current.workId, current.id, reason)])
  {
    assert ([a, reason] + answers)[2..] == answers;
  }

  /** A retry drops everything pushed so far and starts over on a fresh parse;
      the ledger keeps what was appended. */
  lemma RetryStartsOver(batches: nat -> seq<Triaged>, k: nat, i: nat, acc: seq<Resource>, current: Resource,
                        a: string, answers: seq<string>, appended: seq<string>)
    requires i < |batches(k)|
    requires IsRetry(a)
    ensures Ask(batches, k, i, acc, current, [a] + answers, appended) == Review(batches, k + 1, 0, [], answers, appended)
  {
    assert ([a] + answers)[1..] == answers;
  }

  /** Resources already in the ledger are pushed once each without a single
      question being asked. */
  lemma {:induction false} LedgerHitsNeedNoAnswers(batches: nat -> seq<Triaged>, k: nat, i: nat, acc: seq<Resource>,
                                                   answers: seq<string>, appended: seq<string>)
    requires i <= |batches(k)|
    requires forall j :: i <= j < |batches(k)| ==> batches(k)[j].Listed?
    ensures Review(batches, k, i, acc, answers, appended) == Outcome(Accepted(acc + Expected(batches(k)[i..]), k), appended)
    decreases |batches(k)| - i
  {
    if i < |batches(k)| {
      ExpectedStep(batches(k), i);
      var r := batches(k)[i].resource;
      assert batches(k)[i] == Listed(r);
      assert Review(batches, k, i, acc, answers, appended) == Review(batches, k, i + 1, acc + [r], answers, appended);
      LedgerHitsNeedNoAnswers(batches, k, i + 1, acc + [r], answers, appended);
      assert acc + [r] + Expected(batches(k)[i + 1..]) == acc + Expected(batches(k)[i..]);
    } else {
      assert batches(k)[i..] == [];
      assert acc + Expected(batches(k)[i..]) == acc;
    }
  }
}

=== FILE: table.dfy ===
/** The table written to a resource's output file (`formatCsv`,
    tools/resources/index.js lines 72-80): a header row of the Darwin Core
    columns, then one row per taxon holding its value in each column, or the
    empty string where the value is missing or empty. The CSV encoding of the
    table is not part of this model. */
module RowTable {
  import opened Taxa

  /** `data[row][prop] || ''`. */
  function Cell(t: Taxon, f: string): string {
    if t.Truthy(f) then t.fields[f] else ""
  }

  /** What a row shows of a taxon: its non-empty values in the Darwin Core
      columns. */
  function Visible(t: Taxon): map<string, string> {
    map f | f in t.fields && f in DwcFields && t.fields[f] != "" :: t.fields[f]
  }

  /** Columns of the same name hold the same cell, so reading the row back
      by name is unambiguous. */
  predicate Consistent(header: seq<string>, row: seq<string>)
    requires |row| == |header|
  {
    forall i, j :: 0 <= i < |header| && 0 <= j < |header| && header[i] == header[j] ==> row[i] == row[j]
  }

  /** Reading a row back against its header: the non-empty cells under their
      column names. */
  function Recover(header: seq<string>, row: seq<string>): (m: map<string, string>)
    requires |row| == |header| && Consistent(header, row)
    ensures forall j :: 0 <= j < |header| ==> (header[j] in m <==> row[j] != "")
    ensures forall j :: 0 <= j < |header| && row[j] != "" ==> m[header[j]] == row[j]
    ensures m.Keys <= set f | f in header
  {
    map j | 0 <= j < |header| && row[j] != "" :: header[j] := row[j]
  }

  /** A row of one cell per column that reads back as exactly what the taxon
      shows. */
  predicate Shows(row: seq<string>, t: Taxon) {
    |row| == |DwcFields| && Consistent(DwcFields, row) && Recover(DwcFields, row) == Visible(t)
  }

  /** The row of one taxon: its cell under each column. */
  function RowOf(t: Taxon): (row: seq<string>)
    ensures |row| == |DwcFields|
    ensures forall j :: 0 <= j < |DwcFields| ==> row[j] == Cell(t, DwcFields[j])
  {
    seq(|DwcFields|, j requires 0 <= j < |DwcFields| => Cell(t, DwcFields[j]))
  }

  /** The table as the loop builds it. Each taxon row has one cell per
      column and reads back as exactly what the taxon shows. */
  method FormatTable(taxa: seq<Taxon>) returns (table: seq<seq<string>>)
    ensures |table| == |taxa| + 1
    ensures table[0] == DwcFields
    ensures forall i, j :: 1 <= i < |table| && 0 <= j < |DwcFields| ==> |table[i]| == |DwcFields| && table[i][j] == Cell(taxa[i - 1], DwcFields[j])
    ensures forall i :: 1 <= i < |table| ==> Shows(table[i], taxa[i - 1])
  {
    table := [DwcFields];
    var n := 0;
    while n < |taxa|
      invariant 0 <= n <= |taxa|
      invariant |table| == n + 1 && table[0] == DwcFields
      invariant forall i :: 1 <= i < |table| ==> table[i] == RowOf(taxa[i - 1])
    {
      table := table + [RowOf(taxa[n])];
      n := n + 1;
    }
    forall i | 1 <= i < |table| ensures Shows(table[i], taxa[i - 1]) {
      RowRecovers(taxa[i - 1], table[i]);
    }
  }

  lemma RowRecovers(t: Taxon, row: seq<string>)
    requires |row| == |DwcFields|
    requires forall j :: 0 <= j < |DwcFields| ==> row[j] == Cell(t, DwcFields[j])
    ensures Shows(row, t)
  {
    CellsRecover(DwcFields, t, row);
  }

  /** Any header reads a row of cells back as the taxon's non-empty values
      in its columns. */
  lemma CellsRecover(header: seq<string>, t: Taxon, row: seq<string>)
    requires |row| == |header|
    requires forall j :: 0 <= j < |header| ==> row[j] == Cell(t, header[j])
    ensures Consistent(header, row)
    ensures Recover(header, row) == map f | f in t.fields && f in header && t.fields[f] != "" :: t.fields[f]
  {
    var m := Recover(header, row);
    var v := map f | f in t.fields && f in header && t.fields[f] != "" :: t.fields[f];
    forall f ensures f in m <==> f in v {
      if f in header {
        var j :| 0 <= j < |header| && header[j] == f;
        assert row[j] == Cell(t, f);
      }
    }
    forall f | f in m ensures m[f] == v[f] {
      var j :| 0 <= j < |header| && header[j] == f;
    }
  }
}

=== FILE: taxa.dfy ===
/** The records the resource tool works on: taxa as Darwin Core property
    bags, resources (one output file each) and the rows returned by the
    name-matching service. */
module Taxa {
  import opened Results
  import opened JsObject

  const ScientificNameID := "scientificNameID"
  const ScientificName := "scientificName"
  const TaxonRank := "taxonRank"
  const TaxonomicStatus := "taxonomicStatus"
  /** Identifier in the Catalogue of Life (data source 1). */
  const ColTaxonID := "colTaxonID"
  /** Identifier in the GBIF backbone (data source 11). */
  const GbifTaxonID := "gbifTaxonID"

  /** The 26 Darwin Core columns of an output file, in order. */
  const DwcFields: seq<string> := [
    "scientificNameID", "scientificName", "scientificNameAuthorship",
    "genericName", "intragenericEpithet", "specificEpithet",
    "intraspecificEpithet",
    "taxonRank", "taxonRemarks", "collectionCode",
    "taxonomicStatus", "acceptedNameUsageID", "acceptedNameUsage",
    "parentNameUsageID", "parentNameUsage", "kingdom", "phylum", "class",
    "order", "family", "subfamily", "genus", "subgenus",
    "higherClassification",
    "colTaxonID", "gbifTaxonID"
  ]

  /** The ranks eligible for a GBIF identifier, spelled as the tool spells
      them: the second entry is "phyllum", so no taxon of rank "phylum" is
      ever eligible. */
  const GbifRanks: seq<string> := [
    "kingdom", "phyllum", "class", "order", "family", "genus", "species",
    "subspecies", "variety"
  ]

  /** A taxon: its own properties. A property that is absent reads as
      `undefined`; every present one is a string. */
  datatype Taxon = Taxon(fields: map<string, string>) {

    /** The property is neither `undefined` nor the empty string. */
    predicate Truthy(f: string) {
      f in fields && fields[f] != ""
    }

    /** The property as an object key or template text: `undefined` becomes
        the string "undefined". */
    function Key(f: string): string {
      if f in fields then fields[f] else "undefined"
    }

    /** The property, `None` for `undefined`. */
    function Field(f: string): Option<string> {
      if f in fields then Some(fields[f]) else None
    }

    function Set(f: string, v: string): Taxon {
      Taxon(fields[f := v])
    }

    /** `taxonomicStatus === 'accepted'`. */
    predicate IsAccepted() {
      TaxonomicStatus in fields && fields[TaxonomicStatus] == "accepted"
    }

    /** `GBIF_RANKS.includes(taxonRank)`. */
    predicate HasGbifRank() {
      TaxonRank in fields && fields[TaxonRank] in GbifRanks
    }

    /** Everything but the two externally assigned identifiers. */
    function Erase(): Taxon {
      Taxon(fields - {ColTaxonID, GbifTaxonID})
    }
  }

  /** One parsed output file: its identifiers and its taxa keyed by the
      parser's taxon key. */
  datatype Resource = Resource(id: string, workId: string, file: string, taxa: Entries<Taxon>)

  /** One gnverifier row, already projected onto the four columns the tool
      reads. */
  datatype MatchRow = MatchRow(name: string, source: string, taxonId: string, path: string)
}

=== FILE: text.dfy ===
/** The string operations of JavaScript that the core relies on, over
    `seq<char>`: `split` and `join` with a one-character separator, and
    `startsWith`. */
module Text {

  /** `s.startsWith(p)`. */
  predicate StartsWith(s: string, p: string) {
    |p| <= |s| && s[..|p|] == p
  }

  /** Number of occurrences of `c` in `s`. */
  function Count(s: string, c: char): nat {
    if s == [] then 0 else (if s[0] == c then 1 else 0) + Count(s[1..], c)
  }

  /** `s.split(sep)`: the pieces between the occurrences of `sep`. The empty
      text splits into one empty piece. */
  function Split(s: string, sep: char): (pieces: seq<string>)
    ensures |pieces| >= 1
    ensures forall i :: 0 <= i < |pieces| ==> sep !in pieces[i]
  {
    if s == [] then [[]]
    else
      var rest := Split(s[1..], sep);
      if s[0] == sep then [[]] + rest
      else [[s[0]] + rest[0]] + rest[1..]
  }

  /** `pieces.join(sep)`; an empty list joins to the empty text. */
  function Join(pieces: seq<string>, sep: char): string {
    if |pieces| == 0 then []
    else if |pieces| == 1 then pieces[0]
    else pieces[0] + [sep] + Join(pieces[1..], sep)
  }

  /** A split yields one piece more than there are separators. */
  lemma {:induction false} SplitLength(s: string, sep: char)
    ensures |Split(s, sep)| == Count(s, sep) + 1
  {
    if s != [] {
      SplitLength(s[1..], sep);
    }
  }

  /** Joining the pieces of a split gives back the text. */
  lemma {:induction false} JoinSplit(s: string, sep: char)
    ensures Join(Split(s, sep), sep) == s
  {
    if s != [] {
      var rest := Split(s[1..], sep);
      JoinSplit(s[1..], sep);
      if s[0] == sep {
        assert Split(s, sep) == [[]] + rest;
        assert ([[]] + rest)[1..] == rest;
      } else {
        var ps := Split(s, sep);
        assert ps == [[s[0]] + rest[0]] + rest[1..];
        if |rest| == 1 {
          assert Join(rest, sep) == rest[0];
        } else {
          assert ps[1..] == rest[1..];
          assert Join(rest, sep) == rest[0] + [sep] + Join(rest[1..], sep);
        }
      }
    }
  }

  /** Splitting a join gives back the pieces, provided no piece contains the
      separator. */
  lemma {:induction false} SplitJoin(pieces: seq<string>, sep: char)
    requires |pieces| >= 1
    requires forall i :: 0 <= i < |pieces| ==> sep !in pieces[i]
    ensures Split(Join(pieces, sep), sep) == pieces
  {
    if |pieces| == 1 {
      SplitNoSeparator(pieces[0], sep);
    } else {
      SplitJoin(pieces[1..], sep);
      SplitAfterSeparator(pieces[0], Join(pieces[1..], sep), sep);
      assert [pieces[0]] + pieces[1..] == pieces;
    }
  }

  lemma {:induction false} SplitNoSeparator(s: string, sep: char)
    requires sep !in s
    ensures Split(s, sep) == [s]
  {
    if s != [] {
      assert s[0] in s;
      SplitNoSeparator(s[1..], sep);
      assert [s[0]] + s[1..] == s;
    }
  }

  /** `head + sep + tail` splits into `head` followed by the pieces of `tail`,
      when `head` has no separator. */
  lemma {:induction false} SplitAfterSeparator(head: string, tail: string, sep: char)
    requires sep !in head
    ensures Split(head + [sep] + tail, sep) == [head] + Split(tail, sep)
  {
    var s := head + [sep] + tail;
    if head == [] {
      assert s[1..] == tail;
    } else {
      assert s[1..] == head[1..] + [sep] + tail;
      SplitAfterSeparator(head[1..], tail, sep);
      assert [head[0]] + head[1..] == head;
    }
  }

  /** A longer prefix holds at least as many occurrences of a character. */
  lemma {:induction false} CountPrefix(s: string, n: nat, m: nat, c: char)
    requires n <= m <= |s|
    ensures Count(s[..n], c) <= Count(s[..m], c)
  {
    if n > 0 {
      assert s[..n][1..] == s[1..][..n - 1];
      assert s[..m][1..] == s[1..][..m - 1];
      CountPrefix(s[1..], n - 1, m - 1, c);
    }
  }
}
